=== FILE: README.md ===
# VideoChangeDetector: the detection core in Dafny

VideoChangeDetector scans a video file frame by frame. For each frame it checks whether a user-chosen rectangle (the *region of interest*) changed against the previous frame. When a change is found, and at least one second of video time has passed since the last saved change, it saves a screenshot and records a change event. Before the scan, an interactive selector lets the user drag that rectangle on a scaled-down copy of the first frame and maps it back to frame coordinates.

This project models that core as pure Dafny functions over immutable data:

- `Frames` (frames.dfy): a frame as a grid of 8-bit grey values. Python's slice rules are modelled exactly, and so is the crop `frame[y:y+h, x:x+w]` (`crop_region`).
- `Detector` (detector.dfy): `detect_change`. This is the `absdiff` / `threshold(…, 30, 255, THRESH_BINARY)` / `np.sum // 255` pipeline, plus the reference count of changed pixels it computes. The detector's state is the region, `change_threshold` and the stored last frame.
- `Scanner` (scanner.dfy): the loop of `process_video` as a left fold of one loop step over the frames read. It covers the one-second screenshot throttle, the event records, the progress values and the screenshot file name. The method `ProcessVideo` checks the file, the stream and the frame rate, then calls the method `ReadLoop`, which runs the same loop with a `while`. Together they return as `Failure` values the exceptions the code raises for a missing file, a stream that does not open, a division by zero, and `cvtColor` on an empty crop.
- `Selector` (selector.dfy): `select_region` and its mouse callback `_draw_rectangle`. This covers the scale factor and display size, the press/move/release callback and the Enter / `r` / `q` key loop, modelled as a fold over a finite sequence of input events. It also covers mapping the confirmed rectangle back by `int(v / s)`, and the error `cv2.resize` raises when the scaled frame has a side of 0 pixels.
- `Wrappers` (wrappers.dfy): `Option` and `Result`.

Video time (`frame_count / fps`), progress (`frame_count / total_frames * 100`) and the scale factor are exact reals. The wall-clock timestamp label is a parameter `stamp` (frame number to label). The screen resolution is a parameter too.

Modelled as written. Some consequences of the code that a reader might not expect:

- The throttle's watermark starts at 0, so no event can fall in the first second of video time (`ScanEventsDebounced`, `ScanEventsExactly`).
- The confirmed rectangle is neither clamped to the frame nor rejected when its width or height is 0 (`SelectOutcome`, `DragThenConfirm`).
- From the second frame on, a region that crops the frame to an empty image makes `cvtColor` raise inside `detect_change`. A drag of zero width or height does this. So does a region that lies off the frame, and so can the `(-1, -1, …)` rectangle described below. By then the progress callback has already received the first frame's value, which the failure carries (`Detect`, `NextDetect`, `ProcessVideo`).
- With a progress callback and a zero frame count, the first frame read divides by zero. No event can exist at that point, so none is lost (`ProcessVideo`).
- A region with a negative origin is not clipped. Python slicing counts a negative bound from the far edge. A release with no press before it commits a rectangle anchored at `(-1, -1)`, which therefore crops to a wrapped or empty slice (`CropNegativeOriginWraps`, `ReleaseWithoutPress`).
- The mapped-back rectangle truncates `x`, `y`, `w` and `h` separately. Its right edge can therefore fall one pixel short of the mapped display edge. With a negative `x`, which a release without a press produces, it can instead lie one pixel beyond it (`MappedEdge`, `MappedEdgeNegative`, `MappedEdgeFallsShort`, `MappedEdgeOvershoots`).
- Progress is not clamped to [0, 100]. For a positive `total_frames` it exceeds 100 when the stream yields more frames than announced. For a negative `total_frames`, which some streams report, every value is negative and the values fall (`ScanProgress`).
- A frame whose side shrinks to less than one pixel, such as a video 1 pixel wide and at least 973 pixels tall on a 1080-line screen, makes `cv2.resize` raise before the selection window opens (`SelectRegion`, `ThinFrameRaises`).

## Model

| member | source | states |
|---|---|---|
| Frames.PySlice | video_processor.py:39 | the slice has the Python slice length; inside the bounds it is the ordinary subsequence, and element `k` is the element at the normalised start plus `k` |
| Frames.Crop | video_processor.py:30-39 | with no region the frame is returned unchanged; with a region the crop has as many rows as the row slice `y:y+h` selects |
| Frames.CropInside | video_processor.py:36-39 | for a region inside the frame the crop is exactly `h` rows of `w` pixels, and crop pixel `(i, j)` is frame pixel `(y+i, x+j)` |
| Frames.CropSameShape | video_processor.py:52-53 | cropping two equally shaped frames with one region gives equally shaped crops, so `absdiff` accepts them |
| Frames.CropEmptyAlike | video_processor.py:52-57 | two frames of one shape are both cropped to an empty image or neither is, so a region that empties one frame of a stream empties every frame |
| Frames.CropNegativeOriginWraps | video_processor.py:38-39 | the region `(-1, -1, 11, 11)` crops a 20 x 20 frame to nothing: negative origins wrap as Python slices do |
| Detector.SumRowCounts | video_processor.py:60-64 | the sum of one binarised difference row is 255 times the number of positions differing by more than 30 |
| Detector.SumBinarisedCounts | video_processor.py:60-64 | `np.sum(thresh) // 255` equals the number of pixels whose grey levels differ by more than 30 |
| Detector.Detect | video_processor.py:41-70 | with no stored frame, nothing raises, no change is reported and the current frame is stored; with a stored frame, detection fails with `EmptyImage` (the `cv2.error` of `cvtColor`) iff the current frame's crop is empty, and otherwise reports a change iff more than `change_threshold` cropped pixels differ by more than 30, storing the current frame |
| Detector.IdenticalRegionNoChange | video_processor.py:52-70 | if the region is identical in both frames and detection does not raise, no change is reported for any non-negative threshold |
| Detector.FullRegionChange | video_processor.py:52-70 | if every pixel of an inside region differs by more than 30, detection raises iff the region has zero width or height, and otherwise reports a change iff `w * h > change_threshold` |
| Scanner.ScreenshotPathInjective | video_processor.py:83-84 | distinct timestamp labels name distinct screenshot files |
| Scanner.Step | video_processor.py:127-150 | one frame advances the counter by one and stores the frame; it appends at most one event, numbered with the new counter, and keeps the earlier events |
| Scanner.Scan | video_processor.py:116-150 | after the loop the counter equals the number of frames read and the stored frame is the last one read |
| Scanner.NextDetect | video_processor.py:47-57 | after any number of frames the stored frame has the next frame's shape, and `detect_change` raises on the next frame iff that frame is not the first and the stream's frames crop to an empty image |
| Scanner.ThrottleStart | video_processor.py:116-119 | the loop's initial state (empty event list, watermark 0) satisfies the throttle invariant for the empty prefix of frames |
| Scanner.ScanKeepsInvariant | video_processor.py:122-144 | after any number of frames, the watermark is the last event's time; events fall only on frames whose region changed, in order and at least one second apart; every changed frame without an event was suppressed |
| Scanner.ScanEventsDebounced | video_processor.py:127-144 | each event records its frame number, `frame_number / fps`, the label and the screenshot path; events are in frame order, any two are at least one second apart, and none falls in the first second |
| Scanner.ScanEventsExactly | video_processor.py:131-137 | frame `n` has an event iff its region changed against frame `n-1` and it is neither in the first second nor less than one second after an earlier event |
| Scanner.ScanProgress | video_processor.py:147-150 | with a callback there is one value per frame, the `k`-th being `k / total_frames * 100`; for a positive `total_frames` the values strictly increase, and the last is 100 iff exactly `total_frames` frames were read and above 100 iff more were; for a negative `total_frames` the values are negative and strictly decrease |
| Scanner.ProgressAtEnd | video_processor.py:149 | for a positive `total_frames`, progress is exactly 100 at `total_frames` and above 100 beyond it |
| Scanner.ProcessVideo | video_processor.py:90-156 | a missing path fails with FileNotFound and an unopenable one with OpenFailed; a zero fps, or a callback with a zero frame count and at least one frame, fails with a division by zero; otherwise a region that crops the second frame to an empty image fails with `DetectFailed(EmptyImage, …)`, carrying the first frame's progress value when there is a callback; otherwise the result is the loop's events and progress values |
| Scanner.ReadLoop | video_processor.py:122-150 | for a nonzero fps the loop fails with a division by zero iff there is a callback, a zero frame count and at least one frame; it fails with `EmptyImage` iff there is no such division and the frames crop to an empty image from the second frame on, and then at the second frame, after the callback received `1 / total_frames * 100`; otherwise it returns the events and progress values of the fold over all frames |
| Selector.ScaleFactor | region_selector.py:62-66 | the factor is positive; the scaled frame fits in 90% of the screen in both directions, and exactly fills it in one of them |
| Selector.Trunc | region_selector.py:110-113 | `int()` truncates toward zero: the result is within one of the argument, on the side of zero |
| Selector.DisplaySize | region_selector.py:68-72 | a factor of at least 1 keeps the native size; below 1 each side is at most the native side and within one pixel below `side * factor`, which can be 0 (see `DisplayableIff`) |
| Selector.DisplayFitsScreen | region_selector.py:61-72 | the displayed frame never exceeds 90% of the screen in either direction |
| Selector.Normalise | region_selector.py:136-140 | the committed rectangle has non-negative width and height, and its edges are exactly the press and release coordinates |
| Selector.NormaliseAnyDirection | region_selector.py:133-140 | the rectangle is the same whichever corner the drag starts from |
| Selector.OnMouse | region_selector.py:118-140 | a press sets the anchor and starts drawing; a move changes nothing; a release stops drawing and commits the normalised rectangle from the anchor |
| Selector.KeyByte | region_selector.py:87 | `waitKey(1) & 0xFF` lies in 0..255, is unchanged for codes already in that range, and is congruent to the code modulo 256 |
| Selector.Handle | region_selector.py:77-103 | Enter ends the loop confirmed and `q` ends it cancelled, neither changing the selection; `r` clears the committed rectangle only; other keys change nothing; after the end nothing changes |
| Selector.RunKeepsNonNegative | region_selector.py:133-140 | whatever the inputs, a committed rectangle has non-negative width and height |
| Selector.SelectRegion | region_selector.py:49-116 | the call raises iff the displayed frame would have a side of 0 pixels, and otherwise runs the key loop at the scale factor; a returned rectangle has non-negative width and height |
| Selector.KeyLoop | region_selector.py:77-116 | the key loop and mapping back never raise, and a returned rectangle has non-negative width and height |
| Selector.DisplayableIff | region_selector.py:68-72 | the frame can be displayed iff it is not shrunk, or each of its sides times the factor is at least one pixel |
| Selector.ThinFrameRaises | region_selector.py:62-72 | a 1×1000 frame on a 1920×1080 screen is shrunk by 0.972 to a display width of 0, and the call raises |
| Selector.SelectOutcome | region_selector.py:77-116 | once the frame is displayed, at the first Enter or `q`: with `q` nothing is returned; with Enter the committed rectangle is returned mapped back to frame coordinates, or nothing if none was committed |
| Selector.NeverEnds | region_selector.py:77-103 | once the frame is displayed, without Enter or `q` the loop is still waiting |
| Selector.ReleaseWithoutPress | region_selector.py:133-140 | a release with no press before it commits the rectangle from the initial anchor `(-1, -1)` |
| Selector.ResetThenConfirm | region_selector.py:93-116 | once the frame is displayed, `r` followed by Enter returns nothing, whatever was drawn before |
| Selector.DragThenConfirm | region_selector.py:118-140 | once the frame is displayed, press, any moves, release, then Enter returns the rectangle spanned by the press and release points, mapped back |
| Selector.MovesChangeNothing | region_selector.py:126-131 | mouse moves never change the selector's state |
| Selector.ToSourceBracket | region_selector.py:108-113 | for a factor below 1, a non-negative `v` maps to `t = int(v / s)` with `t >= v`, the frame pixel whose scaled extent contains `v` (`t*s <= v < (t+1)*s`) |
| Selector.ToSourceBracketNegative | region_selector.py:108-113 | for a factor below 1, a negative `v` maps to `t = int(v / s)` with `t <= v` and `(t-1)*s < v <= t*s` |
| Selector.MapRegion | region_selector.py:108-116 | at a factor of 1 or more the rectangle is returned unchanged; below 1 each of `x`, `y`, `w`, `h` becomes the frame coordinate `t` with `t*s <= v < (t+1)*s`, or `(t-1)*s < v <= t*s` for a negative `v` (truncation toward zero) |
| Selector.MappedEdge | region_selector.py:110-113 | for non-negative `x` and `w`, mapped `x` plus mapped `w` is the mapped right edge or one less |
| Selector.MappedEdgeNegative | region_selector.py:110-113 | for a negative `x` and a non-negative `w`, mapped `x` plus mapped `w` is the mapped right edge or one less when the edge is negative, and the mapped right edge or one more when it is not |
| Selector.MappedEdgeOvershoots | region_selector.py:108-116 | at factor 0.6, a release with no press then Enter returns `(-1, -1, 3, 3)`, whose right edge 2 is one beyond the mapped display edge 1 |
| Selector.MappedEdgeFallsShort | region_selector.py:110-113 | at factor 0.6, `(1, 1, 1, 1)` maps to itself while the display edge 2 maps to 3 |
| Selector.MapInside | region_selector.py:107-116 | a rectangle drawn inside the displayed frame maps to a rectangle inside the original frame |

## Left out

- The Tkinter front end (main.py): window, threads, busy flag and cancel. `change_threshold` and the region enter the model as parameters, because main.py overwrites the constructor's defaults (region none, threshold 500) before each scan.
- `get_screen_resolution`: it queries the operating system, so the screen size is a parameter.
- OpenCV and PIL I/O and pixel work are not modelled: decoding, the colour conversion of `cvtColor` (frames are taken to be grey already; only its error on an empty image is modelled), `imshow`, the drawn rectangles, the pixel content of `resize`, and writing the PNG. Opening the file is the `Source` value given to `ProcessVideo`.
- The wall clock: the `datetime` label is the parameter `stamp`, read at the frame that produces an event.
- Floating point: fps, video time, progress and the scale factor are exact reals, so rounding in the comparisons `>= 1`, `< 1.0` and in `int()` is not modelled.
- Crops of different shapes: `cv2.absdiff` raises when the two cropped images differ in shape, which frames of different shapes can cause. The model requires all frames to have one shape (`Comparable`, `Uniform`), as the frames of one decoded stream do, so the two crops always agree.
- Detector.Detect: the sum `np.sum(thresh)` is an unbounded integer. NumPy accumulates a `uint8` array in the platform's default integer. On Windows with NumPy 1.x that integer is 32 bits, so there the sum wraps once more than 16,843,009 pixels changed (2^32 / 255). The model does not reproduce that wrap.
- Scanner.ScreenshotPath: the directory and file name are joined with `/`, as `os.path.join` does on POSIX systems. On Windows the separator is `\`.
- Scanner.ScanEventsDebounced, Scanner.ScanEventsExactly: stated for a positive fps only. A negative fps passes the code's only check (`fps == 0` divides by zero) but is not a real stream's rate.
- The `sensitivity` and `min_scene_len` constructor arguments: the code stores them and never reads them.
- The console output of `process_video` (video information, per-event line, summary) and the `duration` it prints.
- The `r` key's re-render of the display frame: this is pixel work, and the display size it recomputes equals `DisplaySize`.
- The selector's event loop never terminates without Enter or `q`: a finite input sequence that contains neither gives `Waiting`.
- Screen and frame sizes are required to be positive (`Positive`). A zero frame side divides by zero in the source, and the modules take sizes from a decoded frame and a real screen.
- test_tool.py: a script that writes a synthetic test video, then calls `select_region` and `process_video` on it. It adds no behaviour of its own to the core, so it is not part of this model.

=== FILE: detector.dfy ===
/**
 * `VideoProcessor.detect_change`: compares the region of the current frame
 * with the same region of the immediately preceding frame.
 *
 * The source computes `absdiff`, binarises it with `threshold(diff, 30, 255,
 * THRESH_BINARY)` (a pixel becomes 255 when its difference is strictly above
 * 30, else 0), sums the binary image and divides by 255. `Detect` follows
 * those steps; `ChangedPixels` is the plain count they are meant to compute.
 */
module Detector {
  import opened Wrappers
  import opened Frames

  /** The binarisation cutoff passed to `cv2.threshold`. */
  const Cutoff: int := 30

  /** The value `THRESH_BINARY` writes for a pixel above the cutoff. */
  const MaxValue: int := 255

  function Abs(v: int): nat {
    if v < 0 then -v else v
  }

  /** A pixel counts as changed when its grey levels differ by more than the cutoff. */
  predicate PixelChanged(a: Pixel, b: Pixel) {
    Abs(a as int - b as int) > Cutoff
  }

  // ---- the source's computation: absdiff, binarise, sum, divide ----

  /** `cv2.absdiff` on two rows of one length. */
  function AbsDiffRow(a: seq<Pixel>, b: seq<Pixel>): (d: seq<Pixel>)
    requires |a| == |b|
    ensures |d| == |a|
    ensures forall j :: 0 <= j < |d| ==> d[j] == Abs(a[j] as int - b[j] as int)
  {
    seq(|a|, j requires 0 <= j < |a| => Abs(a[j] as int - b[j] as int) as Pixel)
  }

  /** `cv2.threshold(row, 30, 255, THRESH_BINARY)`. */
  function BinariseRow(d: seq<Pixel>): (t: seq<Pixel>)
    ensures |t| == |d|
    ensures forall j :: 0 <= j < |t| ==> t[j] == (if d[j] > Cutoff then MaxValue else 0)
  {
    seq(|d|, j requires 0 <= j < |d| => if d[j] > Cutoff then MaxValue else 0)
  }

  /** Sum of a row of pixels. */
  function SumRow(t: seq<Pixel>): nat {
    if |t| == 0 then 0 else SumRow(t[..|t| - 1]) + t[|t| - 1]
  }

  /** `np.sum(thresh)` over the binarised difference of two equally shaped crops. */
  function SumBinarised(a: Frame, b: Frame): nat
    requires |a| == |b|
    requires forall i :: 0 <= i < |a| ==> |a[i]| == |b[i]|
  {
    if |a| == 0 then 0
    else
      var k := |a| - 1;
      SumBinarised(a[..k], b[..k]) + SumRow(BinariseRow(AbsDiffRow(a[k], b[k])))
  }

  // ---- the reference count ----

  /** Number of positions in two rows whose grey levels differ by more than the cutoff. */
  function ChangedInRow(a: seq<Pixel>, b: seq<Pixel>): (n: nat)
    requires |a| == |b|
    ensures n <= |a|
  {
    if |a| == 0 then 0
    else ChangedInRow(a[..|a| - 1], b[..|b| - 1]) + (if PixelChanged(a[|a| - 1], b[|b| - 1]) then 1 else 0)
  }

  /** Number of pixels whose grey levels differ by more than the cutoff. */
  function ChangedPixels(a: Frame, b: Frame): nat
    requires |a| == |b|
    requires forall i :: 0 <= i < |a| ==> |a[i]| == |b[i]|
  {
    if |a| == 0 then 0
    else ChangedPixels(a[..|a| - 1], b[..|b| - 1]) + ChangedInRow(a[|a| - 1], b[|b| - 1])
  }

  /** More than `threshold` pixels of `region` differ by more than the cutoff between two equally shaped frames. */
  ghost predicate RegionChanged(region: Option<Region>, threshold: int, a: Frame, b: Frame)
    requires SameShape(a, b)
  {
    CropSameShape(a, b, region);
    ChangedPixels(Crop(a, region), Crop(b, region)) > threshold
  }

  /** Summing one binarised row gives 255 for every changed pixel of the row. */
  lemma {:induction false} SumRowCounts(a: seq<Pixel>, b: seq<Pixel>)
    requires |a| == |b|
    ensures SumRow(BinariseRow(AbsDiffRow(a, b))) == MaxValue * ChangedInRow(a, b)
  {
    if |a| > 0 {
      var k := |a| - 1;
      SumRowCounts(a[..k], b[..k]);
      var t := BinariseRow(AbsDiffRow(a, b));
      assert t[..k] == BinariseRow(AbsDiffRow(a[..k], b[..k]));
    }
  }

  /**
   * `np.sum(thresh) // 255` is exactly the number of changed pixels: the
   * binarise-and-sum computation and the plain count agree.
   */
  lemma {:induction false} SumBinarisedCounts(a: Frame, b: Frame)
    requires |a| == |b|
    requires forall i :: 0 <= i < |a| ==> |a[i]| == |b[i]|
    ensures SumBinarised(a, b) == MaxValue * ChangedPixels(a, b)
    ensures SumBinarised(a, b) / MaxValue == ChangedPixels(a, b)
  {
    if |a| > 0 {
      var k := |a| - 1;
      SumBinarisedCounts(a[..k], b[..k]);
      SumRowCounts(a[k], b[k]);
    }
  }

  // ---- the stateful detector ----

  /**
   * The detector's state: the processor's region and `change_threshold`
   * (both fixed during a scan) and `last_frame`.
   */
  datatype Detector = Detector(region: Option<Region>, threshold: int, last: Option<Frame>)

  /** The decision of one `detect_change` call and the detector state after it. */
  datatype Detection = Detection(changed: bool, next: Detector)

  /** The `cv2.error` that `cvtColor` raises when its input image is empty. */
  datatype DetectError = EmptyImage

  /** Two images `absdiff` accepts once both are cropped: the stored frame has the current frame's shape. */
  predicate Comparable(d: Detector, current: Frame) {
    d.last.Some? ==> SameShape(d.last.value, current)
  }

  /**
   * One `detect_change` call. With no stored frame it stores the current one
   * and reports no change whatever the content. Otherwise, when the region
   * crops the current frame to an empty image, the grey conversion raises
   * and nothing is stored. Otherwise it reports a change iff more than
   * `threshold` pixels of the cropped region differ by more than the cutoff
   * from the stored frame's crop, and the current frame becomes the stored
   * frame; region and threshold stay.
   */
  function Detect(d: Detector, current: Frame): (r: Result<Detection, DetectError>)
    requires Comparable(d, current)
    ensures r.Failure? <==> d.last.Some? && Empty(Crop(current, d.region))
    ensures r.Success? ==> r.value.next == d.(last := Some(current))
    ensures d.last.None? ==> r.Success? && !r.value.changed
    ensures r.Success? && d.last.Some? ==>
              var c, l := Crop(current, d.region), Crop(d.last.value, d.region);
              SameShape(c, l) && (r.value.changed <==> ChangedPixels(c, l) > d.threshold)
  {
    match d.last
    case None => Success(Detection(false, d.(last := Some(current))))
    case Some(lastFrame) =>
      var c := Crop(current, d.region);
      if Empty(c) then Failure(EmptyImage)
      else
        var l := Crop(lastFrame, d.region);
        CropSameShape(current, lastFrame, d.region);
        var changeCount := SumBinarised(c, l) / MaxValue;
        SumBinarisedCounts(c, l);
        Success(Detection(changeCount > d.threshold, d.(last := Some(current))))
  }

  /** Identical crops have no changed pixel. */
  lemma {:induction false} IdenticalUnchanged(a: Frame)
    ensures ChangedPixels(a, a) == 0
  {
    if |a| > 0 {
      IdenticalUnchanged(a[..|a| - 1]);
      IdenticalRowUnchanged(a[|a| - 1]);
    }
  }

  lemma {:induction false} IdenticalRowUnchanged(a: seq<Pixel>)
    ensures ChangedInRow(a, a) == 0
  {
    if |a| > 0 {
      IdenticalRowUnchanged(a[..|a| - 1]);
    }
  }

  /**
   * A frame whose region equals the stored frame's region never reports a
   * change when the threshold is non-negative.
   */
  lemma IdenticalRegionNoChange(d: Detector, current: Frame)
    requires d.last.Some? && SameShape(d.last.value, current)
    requires Crop(current, d.region) == Crop(d.last.value, d.region)
    requires d.threshold >= 0
    ensures var r := Detect(d, current); r.Success? ==> !r.value.changed
  {
    IdenticalUnchanged(Crop(current, d.region));
  }

  /** Two rows that differ by more than the cutoff at every position differ everywhere. */
  lemma {:induction false} AllRowChanged(a: seq<Pixel>, b: seq<Pixel>)
    requires |a| == |b|
    requires forall j :: 0 <= j < |a| ==> PixelChanged(a[j], b[j])
    ensures ChangedInRow(a, b) == |a|
  {
    if |a| > 0 {
      AllRowChanged(a[..|a| - 1], b[..|b| - 1]);
    }
  }

  /** Two `w`-wide crops differing above the cutoff at every pixel have `h * w` changed pixels. */
  lemma {:induction false} AllChanged(a: Frame, b: Frame, w: nat)
    requires |a| == |b|
    requires forall i :: 0 <= i < |a| ==> |a[i]| == w && |b[i]| == w
    requires forall i, j :: 0 <= i < |a| && 0 <= j < w ==> PixelChanged(a[i][j], b[i][j])
    ensures ChangedPixels(a, b) == |a| * w
  {
    if |a| > 0 {
      var k := |a| - 1;
      AllChanged(a[..k], b[..k], w);
      AllRowChanged(a[k], b[k]);
    }
  }

  /**
   * When every pixel of a `w` x `h` region inside the frame differs from the
   * stored frame by more than the cutoff, a change is reported iff
   * `w * h > change_threshold`.
   */
  lemma FullRegionChange(d: Detector, current: Frame, rg: Region)
    requires d.last.Some? && SameShape(d.last.value, current)
    requires d.region == Some(rg) && Inside(rg, Width(current), |current|)
    requires forall row, col :: rg.y <= row < rg.y + rg.h && rg.x <= col < rg.x + rg.w ==>
               PixelChanged(current[row][col], d.last.value[row][col])
    ensures var r := Detect(d, current);
            (r.Failure? <==> rg.w == 0 || rg.h == 0) &&
            (r.Success? ==> (r.value.changed <==> rg.w * rg.h > d.threshold))
  {
    var c, l := Crop(current, d.region), Crop(d.last.value, d.region);
    CropInside(current, rg);
    CropInside(d.last.value, rg);
    forall i, j | 0 <= i < |c| && 0 <= j < rg.w
      ensures PixelChanged(c[i][j], l[i][j])
    {
      assert c[i][j] == current[rg.y + i][rg.x + j];
      assert l[i][j] == d.last.value[rg.y + i][rg.x + j];
    }
    AllChanged(c, l, rg.w);
  }
}

=== FILE: frames.dfy ===
/**
 * Grey frames and the region-of-interest crop of `VideoProcessor.crop_region`.
 *
 * A frame is a grid of 8-bit grey values, row-major: `f[row][column]`. Cropping
 * follows numpy basic slicing, `frame[y:y+h, x:x+w]`, so the Python slice rules
 * (negative bounds count from the end, bounds are clamped to the length, an
 * empty slice when start >= stop) are modelled exactly.
 */
module Frames {
  import opened Wrappers

  /** An 8-bit grey level, as held in a `uint8` image. */
  type Pixel = v: int | 0 <= v <= 255

  type Frame = seq<seq<Pixel>>

  /** A region of interest `(x, y, w, h)`: left column, top row, width, height. */
  datatype Region = Region(x: int, y: int, w: int, h: int)

  /** Number of pixels per row, read from the first row as numpy's `shape[1]` would be. */
  function Width(f: Frame): nat {
    if |f| == 0 then 0 else |f[0]|
  }

  /** Every row has the same length: the frame is a proper 2-D image. */
  predicate Rectangular(f: Frame) {
    forall i :: 0 <= i < |f| ==> |f[i]| == Width(f)
  }

  /** Both frames are images of the same height and width. */
  predicate SameShape(a: Frame, b: Frame) {
    Rectangular(a) && Rectangular(b) && |a| == |b| && Width(a) == Width(b)
  }

  /** An image with no pixel (numpy's `size == 0`): no rows, or rows of no columns. */
  predicate Empty(f: Frame) {
    |f| == 0 || Width(f) == 0
  }

  /** The region lies inside a `width` x `height` frame. */
  predicate Inside(rg: Region, width: nat, height: nat) {
    0 <= rg.x && 0 <= rg.y && 0 <= rg.w && 0 <= rg.h &&
    rg.x + rg.w <= width && rg.y + rg.h <= height
  }

  /** Python's normalisation of one slice bound against a sequence of length `n`. */
  function SliceBound(i: int, n: nat): (r: nat)
    ensures r <= n
    ensures 0 <= i <= n ==> r == i
    ensures i > n ==> r == n
    ensures i < 0 ==> r == if i + n < 0 then 0 else i + n
  {
    if i < 0 then (if i + n < 0 then 0 else i + n)
    else if i > n then n
    else i
  }

  /** Length of the Python slice `[lo:hi]` of a sequence of length `n`. */
  function SliceLen(n: nat, lo: int, hi: int): nat {
    var a := SliceBound(lo, n);
    var b := SliceBound(hi, n);
    if a < b then b - a else 0
  }

  /** The Python slice `s[lo:hi]` (step 1). */
  function PySlice<T>(s: seq<T>, lo: int, hi: int): (r: seq<T>)
    ensures |r| == SliceLen(|s|, lo, hi)
    ensures 0 <= lo <= hi <= |s| ==> r == s[lo..hi]
    ensures forall k :: 0 <= k < |r| ==> r[k] == s[SliceBound(lo, |s|) + k]
  {
    var a := SliceBound(lo, |s|);
    var b := SliceBound(hi, |s|);
    if a < b then s[a..b] else []
  }

  /** `crop_region`: the whole frame when no region is set, otherwise the rows `y:y+h` and, within each, the columns `x:x+w`. */
  function Crop(f: Frame, region: Option<Region>): (r: Frame)
    ensures region.None? ==> r == f
    ensures region.Some? ==> |r| == SliceLen(|f|, region.value.y, region.value.y + region.value.h)
  {
    match region
    case None => f
    case Some(rg) =>
      var rows := PySlice(f, rg.y, rg.y + rg.h);
      seq(|rows|, i requires 0 <= i < |rows| => PySlice(rows[i], rg.x, rg.x + rg.w))
  }

  /** Every row of a crop of an image has the width of the column slice. */
  lemma CropRows(f: Frame, rg: Region)
    requires Rectangular(f)
    ensures var r := Crop(f, Some(rg));
            forall i :: 0 <= i < |r| ==> |r[i]| == SliceLen(Width(f), rg.x, rg.x + rg.w)
  {
  }

  /**
   * For a region inside the image, the crop is exactly `h` rows of `w` pixels
   * and pixel `(i, j)` of the crop is pixel `(y+i, x+j)` of the image.
   */
  lemma CropInside(f: Frame, rg: Region)
    requires Rectangular(f) && Inside(rg, Width(f), |f|)
    ensures var r := Crop(f, Some(rg));
            |r| == rg.h &&
            (forall i :: 0 <= i < |r| ==> |r[i]| == rg.w) &&
            (forall i, j :: 0 <= i < |r| && 0 <= j < |r[i]| ==> r[i][j] == f[rg.y + i][rg.x + j])
  {
    var rows := PySlice(f, rg.y, rg.y + rg.h);
    assert rows == f[rg.y..rg.y + rg.h];
    var r := Crop(f, Some(rg));
    forall i | 0 <= i < |r|
      ensures |r[i]| == rg.w && forall j :: 0 <= j < |r[i]| ==> r[i][j] == f[rg.y + i][rg.x + j]
    {
      assert rows[i] == f[rg.y + i];
      assert |f[rg.y + i]| == Width(f);
      assert r[i] == PySlice(rows[i], rg.x, rg.x + rg.w) == rows[i][rg.x..rg.x + rg.w];
    }
  }

  /** Cropping two images of one shape with the same region gives crops of one shape. */
  lemma CropSameShape(a: Frame, b: Frame, region: Option<Region>)
    requires SameShape(a, b)
    ensures SameShape(Crop(a, region), Crop(b, region))
  {
    var ca, cb := Crop(a, region), Crop(b, region);
    if region.Some? && |ca| > 0 {
      CropRows(a, region.value);
      CropRows(b, region.value);
      assert Width(ca) == |ca[0]|;
      assert Width(cb) == |cb[0]|;
    }
  }

  /** Equally shaped images crop to an empty image with the same regions. */
  lemma CropEmptyAlike(a: Frame, b: Frame, region: Option<Region>)
    requires SameShape(a, b)
    ensures Empty(Crop(a, region)) <==> Empty(Crop(b, region))
  {
    CropSameShape(a, b, region);
  }

  /**
   * A region whose origin is negative is not clipped: the negative bound
   * counts from the far edge, as in Python. The region `(-1, -1, 11, 11)`,
   * which a release without a press produces, crops a 20 x 20 frame to nothing.
   */
  lemma CropNegativeOriginWraps(f: Frame)
    requires |f| == 20 && Rectangular(f) && Width(f) == 20
    ensures Crop(f, Some(Region(-1, -1, 11, 11))) == []
  {
  }
}

=== FILE: scanner.dfy ===
/**
 * The scan loop of `VideoProcessor.process_video`: every frame read is fed to
 * the detector; a detected change becomes an event (with a screenshot) only
 * when at least one second of video time has passed since the last event,
 * the watermark starting at 0; after each frame the progress callback, when
 * one is given, receives `frame_count / total_frames * 100`.
 *
 * Video time and progress are exact reals. The wall-clock timestamp label is
 * the parameter `stamp`, read at the frame that produces an event.
 */
module Scanner {
  import opened Wrappers
  import opened Frames
  import opened Detector

  // ---- screenshots ----

  /** The file `save_screenshot` writes for a timestamp label: `screenshots/screenshot_<label>.png`. */
  function ScreenshotPath(stamp: string): string {
    "screenshots/screenshot_" + stamp + ".png"
  }

  /** Distinct timestamp labels name distinct screenshot files. */
  lemma ScreenshotPathInjective(a: string, b: string)
    requires ScreenshotPath(a) == ScreenshotPath(b)
    ensures a == b
  {
    var pre := "screenshots/screenshot_";
    var pa, pb := ScreenshotPath(a), ScreenshotPath(b);
    assert |a| == |b|;
    assert a == pa[|pre|..|pre| + |a|];
    assert b == pb[|pre|..|pre| + |b|];
  }

  // ---- scan state ----

  /** One entry of the returned list: `timestamp`, `frame_number`, `time_seconds`, `screenshot_path`. */
  datatype Event = Event(timestamp: string, frameNumber: nat, timeSeconds: real, screenshotPath: string)

  /** Stream metadata and the progress callback: `fps`, `total_frames`, whether a callback is given, and the clock label. */
  datatype Params = Params(fps: real, totalFrames: int, report: bool, stamp: nat -> string)

  /** The loop's state: detector, `frame_count`, `last_screenshot_time`, `change_events`, and the progress values passed so far. */
  datatype ScanState = ScanState(detector: Detector, frameCount: nat, lastShot: real, events: seq<Event>, progress: seq<real>)

  /** Parameters with which no division by zero is reached inside the loop. */
  predicate Valid(p: Params) {
    p.fps != 0.0 && (p.report ==> p.totalFrames != 0)
  }

  /**
   * The second frame, if any, is not cropped to an empty image, on which
   * `detect_change` raises. The frames of one stream share one shape, so the
   * second frame's crop is empty iff every later frame's crop is.
   */
  predicate Croppable(region: Option<Region>, frames: seq<Frame>) {
    |frames| >= 2 ==> !Empty(Crop(frames[1], region))
  }

  /** The loop over `frames` raises nothing: no division by zero and no empty crop. */
  predicate Runs(p: Params, region: Option<Region>, frames: seq<Frame>) {
    (if |frames| > 0 then Valid(p) else p.fps != 0.0) && Croppable(region, frames)
  }

  /** A loop that raises nothing on a stream raises nothing on any prefix of it. */
  lemma RunsPrefix(p: Params, region: Option<Region>, frames: seq<Frame>, i: nat)
    requires Runs(p, region, frames) && i <= |frames|
    ensures Runs(p, region, frames[..i])
  {
    if i >= 2 {
      assert frames[..i][1] == frames[1];
    }
  }

  /** All frames of the stream have one shape, as the frames of one decoded video do. */
  predicate Uniform(frames: seq<Frame>) {
    forall i :: 0 <= i < |frames| ==> SameShape(frames[i], frames[0])
  }

  /** Video time of the `n`-th frame read (1-based): `frame_count / fps`. */
  function VideoTime(n: nat, fps: real): real
    requires fps != 0.0
  {
    n as real / fps
  }

  /** The value passed to the progress callback after the `n`-th frame. */
  function Progress(n: nat, total: int): real
    requires total != 0
  {
    (n as real / total as real) * 100.0
  }

  /** The state at the top of the loop: no stored frame, counter 0, watermark 0, no events. */
  function Start(region: Option<Region>, threshold: int): (st: ScanState)
    ensures st.detector.last.None? && st.frameCount == 0 && st.lastShot == 0.0
    ensures st.events == [] && st.progress == []
  {
    ScanState(Detector(region, threshold, None), 0, 0.0, [], [])
  }

  /** One iteration of the loop body for a frame that was read successfully and on which `detect_change` returns. */
  function Step(st: ScanState, frame: Frame, p: Params): (r: ScanState)
    requires Valid(p) && Comparable(st.detector, frame) && Detect(st.detector, frame).Success?
    ensures r.frameCount == st.frameCount + 1
    ensures r.detector == st.detector.(last := Some(frame))
    ensures |st.events| <= |r.events| <= |st.events| + 1
    ensures r.events[..|st.events|] == st.events
    ensures |r.events| == |st.events| + 1 ==> r.events[|st.events|].frameNumber == r.frameCount
  {
    var n := st.frameCount + 1;
    var t := VideoTime(n, p.fps);
    var det := Detect(st.detector, frame).value;
    var fire := det.changed && t - st.lastShot >= 1.0;
    var events := if fire then st.events + [EventAt(n, p)] else st.events;
    var lastShot := if fire then t else st.lastShot;
    var progress := if p.report then st.progress + [Progress(n, p.totalFrames)] else st.progress;
    ScanState(det.next, n, lastShot, events, progress)
  }

  /** The loop run over the frames read before end of stream (a left fold of `Step`). */
  function Scan(region: Option<Region>, threshold: int, frames: seq<Frame>, p: Params): (st: ScanState)
    requires Runs(p, region, frames) && Uniform(frames)
    ensures st.frameCount == |frames|
    ensures st.detector == Detector(region, threshold, if |frames| == 0 then None else Some(frames[|frames| - 1]))
    decreases |frames|
  {
    if |frames| == 0 then Start(region, threshold)
    else
      var k := |frames| - 1;
      var prev := Scan(region, threshold, frames[..k], p);
      if k > 0 then
        CropEmptyAlike(frames[k], frames[1], region);
        Step(prev, frames[k], p)
      else Step(prev, frames[k], p)
  }

  lemma ScanUnfold(region: Option<Region>, threshold: int, frames: seq<Frame>, p: Params)
    requires Runs(p, region, frames) && Uniform(frames) && |frames| > 0
    ensures Uniform(frames[..|frames| - 1]) && Runs(p, region, frames[..|frames| - 1])
    ensures Detect(Scan(region, threshold, frames[..|frames| - 1], p).detector, frames[|frames| - 1]).Success?
    ensures Scan(region, threshold, frames, p)
         == Step(Scan(region, threshold, frames[..|frames| - 1], p), frames[|frames| - 1], p)
  {
    var k := |frames| - 1;
    RunsPrefix(p, region, frames, k);
    if k > 0 {
      CropEmptyAlike(frames[k], frames[1], region);
    }
  }

  /**
   * The state after `i` frames holds a frame of the next frame's shape, and
   * `detect_change` raises on the next frame iff it is not the first and the
   * stream's frames crop to an empty image.
   */
  lemma NextDetect(region: Option<Region>, threshold: int, frames: seq<Frame>, p: Params, i: nat)
    requires Uniform(frames) && i < |frames| && Runs(p, region, frames[..i])
    ensures Uniform(frames[..i])
    ensures Comparable(Scan(region, threshold, frames[..i], p).detector, frames[i])
    ensures Detect(Scan(region, threshold, frames[..i], p).detector, frames[i]).Failure? <==>
              i > 0 && !Croppable(region, frames)
  {
    assert Uniform(frames[..i]);
    if i > 0 {
      CropEmptyAlike(frames[i], frames[1], region);
    }
  }

  /** One more frame read, on which `detect_change` returns, extends the fold by one step. */
  lemma ScanExtend(region: Option<Region>, threshold: int, frames: seq<Frame>, p: Params, i: nat)
    requires Valid(p) && Uniform(frames) && i < |frames| && Croppable(region, frames[..i])
    requires i > 0 ==> !Empty(Crop(frames[i], region))
    ensures Uniform(frames[..i]) && Uniform(frames[..i + 1]) && Runs(p, region, frames[..i + 1])
    ensures Comparable(Scan(region, threshold, frames[..i], p).detector, frames[i])
    ensures Scan(region, threshold, frames[..i + 1], p) == Step(Scan(region, threshold, frames[..i], p), frames[i], p)
  {
    assert Croppable(region, frames[..i + 1]) by {
      if i > 1 {
        assert frames[..i][1] == frames[1];
      }
    }
    assert Uniform(frames[..i + 1]);
    assert frames[..i + 1][..i] == frames[..i];
    ScanUnfold(region, threshold, frames[..i + 1], p);
  }

  // ---- the reference notion of "this frame changed" ----

  /**
   * The `n`-th frame read (1-based) changed: it is not the first frame, and
   * more than `threshold` pixels of its region differ by more than the cutoff
   * from the same region of the frame read just before it.
   */
  ghost predicate Flagged(region: Option<Region>, threshold: int, frames: seq<Frame>, n: int)
    requires Uniform(frames)
  {
    2 <= n <= |frames| && RegionChanged(region, threshold, frames[n - 1], frames[n - 2])
  }

  lemma FlaggedPrefix(region: Option<Region>, threshold: int, frames: seq<Frame>, k: nat, n: int)
    requires Uniform(frames) && k <= |frames| && n <= k
    ensures Uniform(frames[..k])
    ensures Flagged(region, threshold, frames[..k], n) == Flagged(region, threshold, frames, n)
  {
    if 2 <= n {
      assert frames[..k][n - 1] == frames[n - 1];
      assert frames[..k][n - 2] == frames[n - 2];
    }
  }

  /** The detector's answer at the `k+1`-th frame is the reference `Flagged` answer. */
  lemma DetectIsFlagged(region: Option<Region>, threshold: int, frames: seq<Frame>, p: Params)
    requires Runs(p, region, frames) && Uniform(frames) && |frames| > 0
    ensures Runs(p, region, frames[..|frames| - 1]) && Uniform(frames[..|frames| - 1])
    ensures Comparable(Scan(region, threshold, frames[..|frames| - 1], p).detector, frames[|frames| - 1])
    ensures Detect(Scan(region, threshold, frames[..|frames| - 1], p).detector, frames[|frames| - 1]).Success?
    ensures Detect(Scan(region, threshold, frames[..|frames| - 1], p).detector, frames[|frames| - 1]).value.changed
              == Flagged(region, threshold, frames, |frames|)
  {
    var k := |frames| - 1;
    assert Uniform(frames[..k]);
    RunsPrefix(p, region, frames, k);
    if k > 0 {
      CropEmptyAlike(frames[k], frames[1], region);
      assert frames[..k][k - 1] == frames[k - 1];
    }
  }

  /** The change test of the loop body, on a frame and the frame read just before it. */
  ghost function ChangeTest(region: Option<Region>, threshold: int): (Frame, Frame) -> bool {
    (a: Frame, b: Frame) => SameShape(a, b) && RegionChanged(region, threshold, a, b)
  }

  /** `changed` applied to every frame read and the frame before it; the first frame has none. */
  ghost function PairFlags(frames: seq<Frame>, changed: (Frame, Frame) -> bool): (f: seq<bool>)
    ensures |f| == |frames|
  {
    if |frames| == 0 then []
    else
      var k := |frames| - 1;
      PairFlags(frames[..k], changed) + [k > 0 && changed(frames[k], frames[k - 1])]
  }

  /** The `m`-th pair flag compares the `m`-th frame with the one before it. */
  lemma {:induction false} PairFlagsAt(frames: seq<Frame>, changed: (Frame, Frame) -> bool, m: int)
    requires 1 <= m <= |frames|
    ensures PairFlags(frames, changed)[m - 1] == (m >= 2 && changed(frames[m - 1], frames[m - 2]))
    decreases |frames|
  {
    var k := |frames| - 1;
    if m <= k {
      PairFlagsAt(frames[..k], changed, m);
      assert frames[..k][m - 1] == frames[m - 1];
      if m >= 2 {
        assert frames[..k][m - 2] == frames[m - 2];
      }
    }
  }

  /** The `Flagged` answer of every frame read, in order. */
  ghost function Flags(region: Option<Region>, threshold: int, frames: seq<Frame>): (f: seq<bool>)
    ensures |f| == |frames|
  {
    PairFlags(frames, ChangeTest(region, threshold))
  }

  /** The `m`-th flag is the `Flagged` answer of the `m`-th frame. */
  lemma FlagsAt(region: Option<Region>, threshold: int, frames: seq<Frame>, m: int)
    requires Uniform(frames) && 1 <= m <= |frames|
    ensures Flags(region, threshold, frames)[m - 1] == Flagged(region, threshold, frames, m)
  {
    PairFlagsAt(frames, ChangeTest(region, threshold), m);
  }

  /** The flags of the frames read so far, followed by the answer for the frame just read. */
  lemma FlagsUnfold(region: Option<Region>, threshold: int, frames: seq<Frame>)
    requires Uniform(frames) && |frames| > 0
    ensures Uniform(frames[..|frames| - 1])
    ensures Flags(region, threshold, frames)
         == Flags(region, threshold, frames[..|frames| - 1]) + [Flagged(region, threshold, frames, |frames|)]
  {
    assert Uniform(frames[..|frames| - 1]);
  }

  // ---- the throttle ----

  /** The event the loop body records for its `n`-th frame. */
  function EventAt(n: nat, p: Params): Event
    requires p.fps != 0.0
  {
    Event(p.stamp(n), n, VideoTime(n, p.fps), ScreenshotPath(p.stamp(n)))
  }

  /** Every event records a frame number among the first `count`, its video time, and that frame's label and path. */
  ghost predicate EventsDescribeFrames(events: seq<Event>, p: Params, count: nat)
    requires p.fps != 0.0
  {
    forall i :: 0 <= i < |events| ==>
      1 <= events[i].frameNumber <= count && events[i] == EventAt(events[i].frameNumber, p)
  }

  /**
   * Events are in strictly increasing frame order, consecutive events are at
   * least one second of video time apart, and the first is at one second or later.
   */
  ghost predicate Debounced(events: seq<Event>) {
    (forall i :: 0 < i < |events| ==>
       events[i - 1].frameNumber < events[i].frameNumber &&
       events[i].timeSeconds - events[i - 1].timeSeconds >= 1.0) &&
    (|events| > 0 ==> events[0].timeSeconds >= 1.0)
  }

  /** The time of the last event, or 0 before any event. */
  ghost function WatermarkOf(events: seq<Event>): real {
    if |events| == 0 then 0.0 else events[|events| - 1].timeSeconds
  }

  /** Every event is at a frame whose flag is set. */
  ghost predicate EventsAtFlags(flags: seq<bool>, events: seq<Event>) {
    forall i :: 0 <= i < |events| ==> 1 <= events[i].frameNumber <= |flags| && flags[events[i].frameNumber - 1]
  }

  ghost predicate NoEventAt(events: seq<Event>, n: int) {
    forall i :: 0 <= i < |events| ==> events[i].frameNumber != n
  }

  /** The `n`-th frame is in the first second of video time or less than one second after an earlier event. */
  ghost predicate Suppressed(events: seq<Event>, n: nat, fps: real)
    requires fps != 0.0
  {
    VideoTime(n, fps) < 1.0 ||
    exists i :: 0 <= i < |events| && events[i].frameNumber < n && VideoTime(n, fps) - events[i].timeSeconds < 1.0
  }

  /** A flagged frame is left without an event only when it is suppressed. */
  ghost predicate Covered(flags: seq<bool>, events: seq<Event>, fps: real)
    requires fps != 0.0
  {
    forall m :: 0 <= m < |flags| && flags[m] && NoEventAt(events, m + 1) ==> Suppressed(events, m + 1, fps)
  }

  ghost predicate ThrottleInvariant(flags: seq<bool>, events: seq<Event>, lastShot: real, p: Params)
    requires p.fps != 0.0
  {
    EventsDescribeFrames(events, p, |flags|) && Debounced(events) && lastShot == WatermarkOf(events) &&
    EventsAtFlags(flags, events) && Covered(flags, events, p.fps)
  }

  /** Appending the event of the next frame, one second or more after the watermark, keeps the list debounced. */
  lemma AppendKeepsDebounce(events: seq<Event>, p: Params, count: nat)
    requires p.fps > 0.0
    requires EventsDescribeFrames(events, p, count) && Debounced(events)
    requires VideoTime(count + 1, p.fps) - WatermarkOf(events) >= 1.0
    ensures var events' := events + [EventAt(count + 1, p)];
            EventsDescribeFrames(events', p, count + 1) && Debounced(events')
  {
    var events' := events + [EventAt(count + 1, p)];
    assert forall i :: 0 <= i < |events| ==> events'[i] == events[i];
    if |events| > 0 {
      assert events[|events| - 1].frameNumber <= count;
    }
  }

  lemma AppendKeepsFlags(flags: seq<bool>, b: bool, events: seq<Event>, p: Params, fire: bool)
    requires p.fps > 0.0
    requires EventsAtFlags(flags, events)
    requires fire ==> b
    ensures EventsAtFlags(flags + [b], if fire then events + [EventAt(|flags| + 1, p)] else events)
  {
  }

  lemma AppendKeepsCovered(flags: seq<bool>, b: bool, events: seq<Event>, p: Params)
    requires p.fps > 0.0
    requires EventsDescribeFrames(events, p, |flags|) && Covered(flags, events, p.fps)
    ensures var n := |flags| + 1;
            var fire := b && VideoTime(n, p.fps) - WatermarkOf(events) >= 1.0;
            Covered(flags + [b], if fire then events + [EventAt(n, p)] else events, p.fps)
  {
    var n := |flags| + 1;
    var fire := b && VideoTime(n, p.fps) - WatermarkOf(events) >= 1.0;
    var events' := if fire then events + [EventAt(n, p)] else events;
    var flags' := flags + [b];
    assert forall i :: 0 <= i < |events| ==> events'[i] == events[i];
    forall m | 0 <= m < |flags'| && flags'[m] && NoEventAt(events', m + 1)
      ensures Suppressed(events', m + 1, p.fps)
    {
      if m < |flags| {
        assert NoEventAt(events, m + 1);
        assert Suppressed(events, m + 1, p.fps);
        if VideoTime(m + 1, p.fps) >= 1.0 {
          var i :| 0 <= i < |events| && events[i].frameNumber < m + 1 && VideoTime(m + 1, p.fps) - events[i].timeSeconds < 1.0;
          assert events'[i] == events[i];
        }
      } else if |events| > 0 {
        var i := |events| - 1;
        assert events'[i] == events[i];
        assert events[i].frameNumber <= |flags|;
      }
    }
  }

  /** The throttle decision for one more frame keeps the invariant, for a positive frame rate. */
  lemma ThrottleStep(flags: seq<bool>, b: bool, events: seq<Event>, lastShot: real,
                     flags': seq<bool>, events': seq<Event>, lastShot': real, p: Params)
    requires p.fps > 0.0 && ThrottleInvariant(flags, events, lastShot, p)
    requires flags' == flags + [b]
    requires var n := |flags| + 1;
             var fire := b && VideoTime(n, p.fps) - lastShot >= 1.0;
             events' == (if fire then events + [EventAt(n, p)] else events) &&
             lastShot' == (if fire then VideoTime(n, p.fps) else lastShot)
    ensures ThrottleInvariant(flags', events', lastShot', p)
  {
    var n := |flags| + 1;
    var fire := b && VideoTime(n, p.fps) - lastShot >= 1.0;
    if fire {
      AppendKeepsDebounce(events, p, |flags|);
    }
    AppendKeepsFlags(flags, b, events, p, fire);
    AppendKeepsCovered(flags, b, events, p);
  }

  /** How the last loop iteration changed the event list and the watermark. */
  lemma LastStep(region: Option<Region>, threshold: int, frames: seq<Frame>, p: Params)
    requires Runs(p, region, frames) && Uniform(frames) && |frames| > 0
    ensures Valid(p) && Runs(p, region, frames[..|frames| - 1]) && Uniform(frames[..|frames| - 1])
    ensures var prev := Scan(region, threshold, frames[..|frames| - 1], p);
            var st := Scan(region, threshold, frames, p);
            var fire := Flagged(region, threshold, frames, |frames|) && VideoTime(|frames|, p.fps) - prev.lastShot >= 1.0;
            st.events == (if fire then prev.events + [EventAt(|frames|, p)] else prev.events) &&
            st.lastShot == (if fire then VideoTime(|frames|, p.fps) else prev.lastShot)
  {
    ScanUnfold(region, threshold, frames, p);
    DetectIsFlagged(region, threshold, frames, p);
  }

  /** The throttle invariant holds after any number of frames, for a positive frame rate. */
  lemma {:induction false} ScanKeepsInvariant(region: Option<Region>, threshold: int, frames: seq<Frame>, p: Params)
    requires Runs(p, region, frames) && p.fps > 0.0 && Uniform(frames)
    ensures var st := Scan(region, threshold, frames, p);
            ThrottleInvariant(Flags(region, threshold, frames), st.events, st.lastShot, p)
    decreases |frames|
  {
    if |frames| > 0 {
      var k := |frames| - 1;
      assert Uniform(frames[..k]);
      RunsPrefix(p, region, frames, k);
      ScanKeepsInvariant(region, threshold, frames[..k], p);
      ScanStepKeeps(region, threshold, frames, p);
    } else {
      ThrottleStart(region, threshold, p);
    }
  }

  /** One loop iteration keeps the throttle invariant. */
  lemma ScanStepKeeps(region: Option<Region>, threshold: int, frames: seq<Frame>, p: Params)
    requires Runs(p, region, frames) && p.fps > 0.0 && Uniform(frames) && |frames| > 0
    requires Uniform(frames[..|frames| - 1])
    requires var prev := Scan(region, threshold, frames[..|frames| - 1], p);
             ThrottleInvariant(Flags(region, threshold, frames[..|frames| - 1]), prev.events, prev.lastShot, p)
    ensures var st := Scan(region, threshold, frames, p);
            ThrottleInvariant(Flags(region, threshold, frames), st.events, st.lastShot, p)
  {
    var k := |frames| - 1;
    RunsPrefix(p, region, frames, k);
    var prev := Scan(region, threshold, frames[..k], p);
    var st := Scan(region, threshold, frames, p);
    var flags := Flags(region, threshold, frames[..k]);
    var b := Flagged(region, threshold, frames, k + 1);
    FlagsUnfold(region, threshold, frames);
    LastStep(region, threshold, frames, p);
    ThrottleStep(flags, b, prev.events, prev.lastShot, Flags(region, threshold, frames), st.events, st.lastShot, p);
  }

  /** The state at the top of the loop satisfies the invariant for the empty prefix: no flags, no events, watermark 0. */
  lemma ThrottleStart(region: Option<Region>, threshold: int, p: Params)
    requires p.fps > 0.0
    ensures ThrottleInvariant([], Start(region, threshold).events, Start(region, threshold).lastShot, p)
  {
  }

  // ---- properties of a whole scan ----

  /** A debounced list is ordered and spaced pairwise, not only between neighbours. */
  lemma {:induction false} DebouncedPairwise(events: seq<Event>, i: nat, j: nat)
    requires Debounced(events) && i < j < |events|
    ensures events[i].frameNumber < events[j].frameNumber
    ensures events[j].timeSeconds - events[i].timeSeconds >= 1.0
    ensures events[j].timeSeconds >= 1.0
    decreases j, j - i
  {
    if i + 1 < j {
      DebouncedPairwise(events, i + 1, j);
    } else if i > 0 {
      DebouncedPairwise(events, 0, i);
    }
  }

  /**
   * The events of a scan, for a positive frame rate: each names a frame read
   * so far with `time_seconds = frame_number / fps` and that frame's label and
   * screenshot path; frame numbers strictly increase; any two events are at
   * least one second of video time apart; and no event falls in the first
   * second, since the watermark starts at 0.
   */
  lemma ScanEventsDebounced(region: Option<Region>, threshold: int, frames: seq<Frame>, p: Params)
    requires Runs(p, region, frames) && p.fps > 0.0 && Uniform(frames)
    ensures var ev := Scan(region, threshold, frames, p).events;
            (forall i :: 0 <= i < |ev| ==>
               1 <= ev[i].frameNumber <= |frames| &&
               ev[i].timeSeconds == ev[i].frameNumber as real / p.fps &&
               ev[i].timeSeconds >= 1.0 &&
               ev[i].timestamp == p.stamp(ev[i].frameNumber) &&
               ev[i].screenshotPath == ScreenshotPath(p.stamp(ev[i].frameNumber))) &&
            (forall i, j :: 0 <= i < j < |ev| ==>
               ev[i].frameNumber < ev[j].frameNumber && ev[j].timeSeconds - ev[i].timeSeconds >= 1.0)
  {
    ScanKeepsInvariant(region, threshold, frames, p);
    var st := Scan(region, threshold, frames, p);
    InvariantEvents(Flags(region, threshold, frames), st.events, st.lastShot, p, |frames|);
  }

  /** What the throttle invariant says about the events themselves, after `count` frames. */
  lemma InvariantEvents(flags: seq<bool>, ev: seq<Event>, lastShot: real, p: Params, count: nat)
    requires p.fps > 0.0 && ThrottleInvariant(flags, ev, lastShot, p) && count == |flags|
    ensures forall i :: 0 <= i < |ev| ==>
              1 <= ev[i].frameNumber <= count &&
              ev[i].timeSeconds == ev[i].frameNumber as real / p.fps &&
              ev[i].timeSeconds >= 1.0 &&
              ev[i].timestamp == p.stamp(ev[i].frameNumber) &&
              ev[i].screenshotPath == ScreenshotPath(p.stamp(ev[i].frameNumber))
    ensures forall i, j :: 0 <= i < j < |ev| ==>
              ev[i].frameNumber < ev[j].frameNumber && ev[j].timeSeconds - ev[i].timeSeconds >= 1.0
  {
    forall i, j | 0 <= i < j < |ev|
      ensures ev[i].frameNumber < ev[j].frameNumber && ev[j].timeSeconds - ev[i].timeSeconds >= 1.0
    {
      DebouncedPairwise(ev, i, j);
    }
    forall i | 0 < i < |ev|
      ensures ev[i].timeSeconds >= 1.0
    {
      DebouncedPairwise(ev, 0, i);
    }
  }

  /** Some event of the list is at the `n`-th frame. */
  ghost predicate HasEventAt(events: seq<Event>, n: int) {
    exists i :: 0 <= i < |events| && events[i].frameNumber == n
  }

  /**
   * The throttle, characterised: for a positive frame rate, the `n`-th frame
   * read has an event iff it changed (its region differs from the preceding
   * frame's by more than `threshold` pixels) and it is neither in the first
   * second of video time nor less than one second after an earlier event.
   */
  lemma ScanEventsExactly(region: Option<Region>, threshold: int, frames: seq<Frame>, p: Params, n: int)
    requires Runs(p, region, frames) && p.fps > 0.0 && Uniform(frames) && 1 <= n <= |frames|
    ensures var ev := Scan(region, threshold, frames, p).events;
            HasEventAt(ev, n) <==> Flagged(region, threshold, frames, n) && !Suppressed(ev, n, p.fps)
  {
    var st := Scan(region, threshold, frames, p);
    ScanKeepsInvariant(region, threshold, frames, p);
    FlagsAt(region, threshold, frames, n);
    ThrottleExactly(Flags(region, threshold, frames), st.events, st.lastShot, p, n);
  }

  /** The throttle invariant pins down the frames with events. */
  lemma ThrottleExactly(flags: seq<bool>, events: seq<Event>, lastShot: real, p: Params, n: int)
    requires p.fps > 0.0 && ThrottleInvariant(flags, events, lastShot, p) && 1 <= n <= |flags|
    ensures HasEventAt(events, n) <==> flags[n - 1] && !Suppressed(events, n, p.fps)
  {
    if HasEventAt(events, n) {
      var j :| 0 <= j < |events| && events[j].frameNumber == n;
      EventNotSuppressed(events, p, |flags|, j);
    } else if flags[n - 1] {
      assert NoEventAt(events, n);
    }
  }

  /** The frame of an event is never suppressed: the throttle let it through. */
  lemma EventNotSuppressed(events: seq<Event>, p: Params, count: nat, j: int)
    requires p.fps > 0.0 && EventsDescribeFrames(events, p, count) && Debounced(events)
    requires 0 <= j < |events|
    ensures !Suppressed(events, events[j].frameNumber, p.fps)
  {
    var n := events[j].frameNumber;
    assert events[j] == EventAt(n, p);
    if j > 0 {
      DebouncedPairwise(events, 0, j);
    }
    forall i | 0 <= i < |events| && events[i].frameNumber < n
      ensures VideoTime(n, p.fps) - events[i].timeSeconds >= 1.0
    {
      if j < i {
        DebouncedPairwise(events, j, i);
      } else if i < j {
        DebouncedPairwise(events, i, j);
      }
    }
  }

  /**
   * The progress values of a scan with a callback: one per frame read, the
   * `k`-th being `k / total_frames * 100`. For a positive `total_frames` they
   * strictly increase, and the last is exactly 100 iff as many frames were
   * read as announced and above 100 iff more were read: nothing clamps it.
   * For a negative `total_frames`, as a stream may report, they are negative
   * and strictly decrease.
   */
  lemma ScanProgress(region: Option<Region>, threshold: int, frames: seq<Frame>, p: Params)
    requires Runs(p, region, frames) && Uniform(frames)
    ensures var pr := Scan(region, threshold, frames, p).progress;
            |pr| == (if p.report then |frames| else 0) &&
            (forall i :: 0 <= i < |pr| ==> pr[i] == Progress(i + 1, p.totalFrames))
    ensures var pr := Scan(region, threshold, frames, p).progress;
            p.totalFrames > 0 ==> forall i, j :: 0 <= i < j < |pr| ==> pr[i] < pr[j]
    ensures var pr := Scan(region, threshold, frames, p).progress;
            p.totalFrames > 0 && |pr| > 0 ==>
              (pr[|pr| - 1] == 100.0 <==> |frames| == p.totalFrames) &&
              (pr[|pr| - 1] > 100.0 <==> |frames| > p.totalFrames)
    ensures var pr := Scan(region, threshold, frames, p).progress;
            p.totalFrames < 0 ==>
              (forall i :: 0 <= i < |pr| ==> pr[i] < 0.0) &&
              (forall i, j :: 0 <= i < j < |pr| ==> pr[i] > pr[j])
  {
    var pr := Scan(region, threshold, frames, p).progress;
    ScanProgressValues(region, threshold, frames, p);
    if p.totalFrames > 0 {
      ProgressIncreasing(pr, p.totalFrames);
      if |pr| > 0 {
        ProgressAtEnd(|pr|, p.totalFrames);
      }
    } else if p.totalFrames < 0 {
      ProgressDecreasing(pr, p.totalFrames);
    }
  }

  /** For a negative total, progress values for frames 1, 2, ... are negative and strictly decreasing. */
  lemma ProgressDecreasing(pr: seq<real>, total: int)
    requires total < 0
    requires forall i :: 0 <= i < |pr| ==> pr[i] == Progress(i + 1, total)
    ensures forall i :: 0 <= i < |pr| ==> pr[i] < 0.0
    ensures forall i, j :: 0 <= i < j < |pr| ==> pr[i] > pr[j]
  {
    forall i | 0 <= i < |pr|
      ensures pr[i] < 0.0
    {
      ProgressNegative(i + 1, total);
    }
    forall i, j | 0 <= i < j < |pr|
      ensures pr[i] > pr[j]
    {
      ProgressAntitone(i + 1, j + 1, total);
    }
  }

  /** Progress after at least one frame has the sign of the total. */
  lemma ProgressNegative(n: nat, total: int)
    requires total < 0 && n > 0
    ensures Progress(n, total) < 0.0
  {
    assert n as real / total as real < 0.0;
  }

  /** For a negative total, more frames read, less progress. */
  lemma ProgressAntitone(m: nat, n: nat, total: int)
    requires total < 0 && m < n
    ensures Progress(m, total) > Progress(n, total)
  {
    var t := total as real;
    assert m as real / t > n as real / t by {
      assert (n as real - m as real) / t < 0.0;
    }
  }

  /** A sequence of progress values for frames 1, 2, ... is strictly increasing. */
  lemma ProgressIncreasing(pr: seq<real>, total: int)
    requires total > 0
    requires forall i :: 0 <= i < |pr| ==> pr[i] == Progress(i + 1, total)
    ensures forall i, j :: 0 <= i < j < |pr| ==> pr[i] < pr[j]
  {
    forall i, j | 0 <= i < j < |pr|
      ensures pr[i] < pr[j]
    {
      ProgressMonotone(i + 1, j + 1, total);
    }
  }

  /** How the last loop iteration changed the progress values. */
  lemma LastProgress(region: Option<Region>, threshold: int, frames: seq<Frame>, p: Params)
    requires Runs(p, region, frames) && Uniform(frames) && |frames| > 0
    ensures var k := |frames| - 1;
            Uniform(frames[..k]) &&
            var pr0 := Scan(region, threshold, frames[..k], p).progress;
            Scan(region, threshold, frames, p).progress
              == if p.report then pr0 + [Progress(k + 1, p.totalFrames)] else pr0
  {
    ScanUnfold(region, threshold, frames, p);
  }

  lemma {:induction false} ScanProgressValues(region: Option<Region>, threshold: int, frames: seq<Frame>, p: Params)
    requires Runs(p, region, frames) && Uniform(frames)
    ensures var pr := Scan(region, threshold, frames, p).progress;
            |pr| == (if p.report then |frames| else 0) &&
            (forall i :: 0 <= i < |pr| ==> pr[i] == Progress(i + 1, p.totalFrames))
    decreases |frames|
  {
    if |frames| > 0 {
      var k := |frames| - 1;
      LastProgress(region, threshold, frames, p);
      ScanProgressValues(region, threshold, frames[..k], p);
      var pr0 := Scan(region, threshold, frames[..k], p).progress;
      if p.report {
        ProgressAppend(pr0, k, p.totalFrames);
      }
    }
  }

  lemma ProgressAppend(pr: seq<real>, k: nat, total: int)
    requires total != 0
    requires |pr| == k && forall i :: 0 <= i < |pr| ==> pr[i] == Progress(i + 1, total)
    ensures var pr' := pr + [Progress(k + 1, total)];
            |pr'| == k + 1 && forall i :: 0 <= i < |pr'| ==> pr'[i] == Progress(i + 1, total)
  {
  }

  /** More frames read, more progress. */
  lemma ProgressMonotone(m: nat, n: nat, total: int)
    requires total > 0 && m < n
    ensures Progress(m, total) < Progress(n, total)
  {
    var t := total as real;
    assert m as real / t < n as real / t by {
      assert (n as real - m as real) / t > 0.0;
    }
  }

  /** Progress reaches exactly 100 at `total_frames` frames and exceeds it beyond. */
  lemma ProgressAtEnd(n: nat, total: int)
    requires total > 0
    ensures Progress(n, total) == 100.0 <==> n == total
    ensures Progress(n, total) > 100.0 <==> n > total
  {
    var t := total as real;
    var q := n as real / t;
    assert q * t == n as real;
    if n > total {
      assert q > 1.0;
    } else {
      assert q <= 1.0;
    }
  }

  // ---- process_video ----

  /** What opening the path gives: no such file, a file the decoder cannot open, or a stream with its metadata and the frames read before the first failed read. */
  datatype Source =
    | Missing
    | Unopenable
    | Opened(fps: real, totalFrames: int, frames: seq<Frame>)

  /** The exceptions `process_video` raises. */
  datatype ScanError =
    | FileNotFound
    | OpenFailed
    | ZeroDivision
      /** `detect_change` raised; `reported` are the values the progress callback had already received. */
    | DetectFailed(cause: DetectError, reported: seq<real>)

  /** The returned event list and the values passed to the progress callback. */
  datatype Report = Report(events: seq<Event>, progress: seq<real>)

  /**
   * `process_video`. A missing path raises `FileNotFoundError` and a stream
   * that does not open raises before any frame is read. A zero frame rate
   * divides by zero when the duration is computed, before the loop; with a
   * callback, a zero frame count divides by zero at the first frame read,
   * before any event can exist. From the second frame on, a region
   * that crops the frame to an empty image makes `detect_change` raise; the
   * callback, if any, has by then received the first frame's value.
   * Otherwise every frame read goes through the loop body, in order.
   */
  method ProcessVideo(src: Source, region: Option<Region>, threshold: int, report: bool, stamp: nat -> string)
    returns (r: Result<Report, ScanError>)
    requires src.Opened? ==> Uniform(src.frames)
    ensures src.Missing? <==> r == Failure(FileNotFound)
    ensures src.Unopenable? <==> r == Failure(OpenFailed)
    ensures r == Failure(ZeroDivision) <==>
              src.Opened? && (src.fps == 0.0 || (report && src.totalFrames == 0 && |src.frames| > 0))
    ensures r.Failure? && r.error.DetectFailed? <==>
              src.Opened? && src.fps != 0.0 && !(report && src.totalFrames == 0 && |src.frames| > 0) &&
              !Croppable(region, src.frames)
    ensures r.Failure? && r.error.DetectFailed? ==>
              r.error.cause == EmptyImage && src.Opened? && (report ==> src.totalFrames != 0) &&
              r.error.reported == if report then [Progress(1, src.totalFrames)] else []
    ensures r.Success? ==>
              var p := Params(src.fps, src.totalFrames, report, stamp);
              Runs(p, region, src.frames) &&
              var st := Scan(region, threshold, src.frames, p);
              r.value == Report(st.events, st.progress)
  {
    if src.Missing? {
      return Failure(FileNotFound);
    }
    if src.Unopenable? {
      return Failure(OpenFailed);
    }
    if src.fps == 0.0 {
      return Failure(ZeroDivision);
    }
    r := ReadLoop(src.frames, region, threshold, Params(src.fps, src.totalFrames, report, stamp));
  }

  /** A stream whose first `i` frames crop fine but which does not, fails at its second frame. */
  lemma FailsAtSecond(region: Option<Region>, frames: seq<Frame>, i: nat)
    requires i <= |frames| && Croppable(region, frames[..i]) && !Croppable(region, frames)
    ensures i <= 1 && |frames| >= 2
  {
    if i >= 2 {
      CroppableSecond(region, frames, i);
    }
  }

  /** Whether a stream crops fine is decided by its second frame, so a prefix of two or more frames decides it. */
  lemma CroppableSecond(region: Option<Region>, frames: seq<Frame>, i: nat)
    requires 2 <= i <= |frames|
    ensures Croppable(region, frames[..i]) <==> Croppable(region, frames)
  {
    assert frames[..i][1] == frames[1];
  }

  /** After one frame the callback has received one value, `1 / total_frames * 100`, if there is a callback. */
  lemma FirstProgress(region: Option<Region>, threshold: int, frames: seq<Frame>, p: Params)
    requires |frames| == 1 && Runs(p, region, frames) && Uniform(frames)
    ensures Valid(p)
    ensures Scan(region, threshold, frames, p).progress == if p.report then [Progress(1, p.totalFrames)] else []
  {
    ScanProgressValues(region, threshold, frames, p);
  }

  /**
   * The `while True` loop of `process_video` over the frames read, for a
   * nonzero frame rate: it stops with the first exception, at the first
   * frame (a zero frame count with a callback) or at the second (an empty
   * crop, after the first frame's progress value was passed on), or returns
   * the events and progress values of the whole fold.
   */
  method ReadLoop(frames: seq<Frame>, region: Option<Region>, threshold: int, p: Params)
    returns (r: Result<Report, ScanError>)
    requires p.fps != 0.0 && Uniform(frames)
    ensures r.Success? || r == Failure(ZeroDivision) || (r.Failure? && r.error.DetectFailed?)
    ensures r == Failure(ZeroDivision) <==> p.report && p.totalFrames == 0 && |frames| > 0
    ensures r.Failure? && r.error.DetectFailed? <==>
              !(p.report && p.totalFrames == 0 && |frames| > 0) && !Croppable(region, frames)
    ensures r.Failure? && r.error.DetectFailed? ==>
              r.error.cause == EmptyImage && |frames| >= 2 && Valid(p) &&
              r.error.reported == if p.report then [Progress(1, p.totalFrames)] else []
    ensures r.Success? ==>
              Runs(p, region, frames) &&
              var st := Scan(region, threshold, frames, p);
              r.value == Report(st.events, st.progress)
  {
    var st := Start(region, threshold);
    var i := 0;
    while i < |frames|
      invariant 0 <= i <= |frames|
      invariant Runs(p, region, frames[..i]) && Uniform(frames[..i])
      invariant st == Scan(region, threshold, frames[..i], p)
    {
      NextDetect(region, threshold, frames, p, i);
      var det := Detect(st.detector, frames[i]);
      if det.Failure? {
        FailsAtSecond(region, frames, i);
        FirstProgress(region, threshold, frames[..i], p);
        return Failure(DetectFailed(det.error, st.progress));
      }
      if !Valid(p) {
        // the frame rate is nonzero here, so this is `frame_count / total_frames` with a callback
        return Failure(ZeroDivision);
      }
      ScanExtend(region, threshold, frames, p, i);
      st := Step(st, frames[i], p);
      i := i + 1;
    }
    assert frames[..i] == frames;
    return Success(Report(st.events, st.progress));
  }

}

=== FILE: selector.dfy ===
/**
 * `RegionSelector.select_region` and its mouse callback `_draw_rectangle`.
 *
 * The frame is shown scaled by `0.9 * min(screen_w / frame_w, screen_h /
 * frame_h)` when that factor is below 1, at native size otherwise. The user
 * drags a rectangle in display coordinates: a press sets the anchor, a
 * release commits the rectangle spanned by the anchor and the release point.
 * Enter confirms, `r` clears the committed rectangle, `q` cancels. On confirm
 * a scaled display rectangle is mapped back to frame coordinates by dividing
 * each of `x, y, w, h` by the factor and truncating toward zero, as Python's
 * `int()` does.
 *
 * When the factor shrinks a side to less than one pixel, `cv2.resize` gets a
 * side of 0 and raises before the window opens.
 *
 * The interaction is a fold over a finite sequence of input events; the
 * screen size is a parameter; the factor is an exact real.
 */
module Selector {
  import opened Wrappers
  import opened Frames

  /** The key codes the loop reacts to, after `waitKey(1) & 0xFF`. */
  const EnterKey: int := 13
  const ResetKey: int := 'r' as int
  const QuitKey: int := 'q' as int

  /** The margin left around the displayed frame. */
  const Margin: real := 0.9

  // ---- scale factor and display size ----

  function Min(a: real, b: real): real {
    if a <= b then a else b
  }

  /** A width and a height in pixels. */
  datatype Size = Size(width: int, height: int)

  /** Both sides positive, as the screen query and a decoded frame give them. */
  predicate Positive(sz: Size) {
    sz.width > 0 && sz.height > 0
  }

  /**
   * `0.9 * min(screen_w / frame_w, screen_h / frame_h)`: the largest factor
   * that fits 90% of the screen in both directions.
   */
  function ScaleFactor(screen: Size, frame: Size): (s: real)
    requires Positive(screen) && Positive(frame)
    ensures s > 0.0
    ensures frame.width as real * s <= Margin * screen.width as real
    ensures frame.height as real * s <= Margin * screen.height as real
    ensures frame.width as real * s == Margin * screen.width as real ||
            frame.height as real * s == Margin * screen.height as real
  {
    var wr := screen.width as real / frame.width as real;
    var hr := screen.height as real / frame.height as real;
    Min(wr, hr) * Margin
  }

  /** Python's `int()` on a float: truncation toward zero. */
  function Trunc(r: real): (t: int)
    ensures r >= 0.0 ==> 0 <= t && t as real <= r < t as real + 1.0
    ensures r < 0.0 ==> t <= 0 && r <= t as real && t as real < r + 1.0
  {
    if r >= 0.0 then r.Floor else -((-r).Floor)
  }

  /**
   * The size of the frame as displayed: `(int(w * s), int(h * s))` when
   * `s < 1`, the native size otherwise (never upscaled).
   */
  function DisplaySize(frame: Size, s: real): (d: Size)
    requires Positive(frame) && s > 0.0
    ensures s >= 1.0 ==> d == frame
    ensures s < 1.0 ==> ScaledSide(d.width, frame.width, s) && ScaledSide(d.height, frame.height, s)
  {
    if s < 1.0 then Size(ScaleSide(frame.width, s), ScaleSide(frame.height, s))
    else frame
  }

  /** One side of the frame shrunk by `s < 1`: `int(n * s)`. */
  function ScaleSide(n: int, s: real): (t: int)
    requires n > 0 && 0.0 < s < 1.0
    ensures ScaledSide(t, n, s)
  {
    ScaledDown(n, s);
    Trunc(n as real * s)
  }

  /** `t` is the side `n` scaled by `s` and truncated: no longer than `n`, and within one pixel below `n * s`. */
  predicate ScaledSide(t: int, n: int, s: real) {
    0 <= t <= n && t as real <= n as real * s < t as real + 1.0
  }

  /** A side shrunk by a factor below 1 and truncated is no longer than the side. */
  lemma ScaledDown(n: int, s: real)
    requires n > 0 && 0.0 < s < 1.0
    ensures ScaledSide(Trunc(n as real * s), n, s)
  {
    var nr := n as real;
    var w := nr * s;
    assert 0.0 < w;
    assert nr * (1.0 - s) == nr - w;
    assert nr * (1.0 - s) > 0.0;
    var t := Trunc(w);
    assert t as real < n as real;
  }


  /** The displayed frame always fits in 90% of the screen in both directions. */
  lemma DisplayFitsScreen(screen: Size, frame: Size)
    requires Positive(screen) && Positive(frame)
    ensures var d := DisplaySize(frame, ScaleFactor(screen, frame));
            d.width as real <= Margin * screen.width as real &&
            d.height as real <= Margin * screen.height as real
  {
    DisplayFits(screen, frame, ScaleFactor(screen, frame));
  }

  /** At any factor that fits the frame's scaled sides in 90% of the screen, the displayed frame fits too. */
  lemma DisplayFits(screen: Size, frame: Size, s: real)
    requires Positive(screen) && Positive(frame) && s > 0.0
    requires frame.width as real * s <= Margin * screen.width as real
    requires frame.height as real * s <= Margin * screen.height as real
    ensures var d := DisplaySize(frame, s);
            d.width as real <= Margin * screen.width as real &&
            d.height as real <= Margin * screen.height as real
  {
    var d := DisplaySize(frame, s);
    if s >= 1.0 {
      GrowAbove(frame.width, s);
      GrowAbove(frame.height, s);
    } else {
      assert d.width as real <= frame.width as real * s;
      assert d.height as real <= frame.height as real * s;
    }
  }

  lemma GrowAbove(n: int, s: real)
    requires n > 0 && s >= 1.0
    ensures n as real <= n as real * s
  {
    assert n as real * s - n as real == n as real * (s - 1.0);
  }

  // ---- the mouse callback ----

  /** Input events: mouse press, move and release at display coordinates, and a polled key code. */
  datatype Input = Press(x: int, y: int) | Move(x: int, y: int) | Release(x: int, y: int) | Key(code: int)

  /** The selector's fields: `drawing`, the anchor `(ix, iy)` and the committed `region`. */
  datatype Mouse = Mouse(drawing: bool, ix: int, iy: int, region: Option<Region>)

  /** A new `RegionSelector`: not drawing, anchor `(-1, -1)`, no region. */
  const Fresh: Mouse := Mouse(false, -1, -1, None)

  function MinInt(a: int, b: int): int {
    if a <= b then a else b
  }

  function MaxInt(a: int, b: int): int {
    if a <= b then b else a
  }

  /**
   * The rectangle a release commits: top-left at the smaller coordinates,
   * width and height the non-negative spans. Its two horizontal edges are
   * exactly the two x coordinates, and likewise vertically.
   */
  function Normalise(ax: int, ay: int, px: int, py: int): (r: Region)
    ensures r.w >= 0 && r.h >= 0
    ensures {r.x, r.x + r.w} == {ax, px}
    ensures {r.y, r.y + r.h} == {ay, py}
  {
    var x1, y1 := MinInt(ax, px), MinInt(ay, py);
    var x2, y2 := MaxInt(ax, px), MaxInt(ay, py);
    Region(x1, y1, x2 - x1, y2 - y1)
  }

  /** Whichever corner the drag starts from, the committed rectangle is the same. */
  lemma NormaliseAnyDirection(ax: int, ay: int, px: int, py: int)
    ensures Normalise(ax, ay, px, py) == Normalise(px, py, ax, ay)
    ensures Normalise(ax, ay, px, py) == Normalise(px, ay, ax, py)
    ensures Normalise(ax, ay, px, py) == Normalise(ax, py, px, ay)
  {
  }

  /**
   * `_draw_rectangle`. A press sets the anchor and starts drawing; a move only
   * previews; a release stops drawing and commits the normalised rectangle
   * from the anchor, whether or not a press came first.
   */
  function OnMouse(m: Mouse, ev: Input): (r: Mouse)
    requires !ev.Key?
    ensures ev.Press? ==> r.drawing && r.ix == ev.x && r.iy == ev.y && r.region == m.region
    ensures ev.Move? ==> r == m
    ensures ev.Release? ==>
              !r.drawing && r.ix == m.ix && r.iy == m.iy &&
              r.region.Some? && r.region.value.w >= 0 && r.region.value.h >= 0 &&
              r.region == Some(Normalise(m.ix, m.iy, ev.x, ev.y))
  {
    match ev
    case Press(x, y) => m.(drawing := true, ix := x, iy := y)
    case Move(_, _) => m
    case Release(x, y) => m.(drawing := false, region := Some(Normalise(m.ix, m.iy, x, y)))
  }

  // ---- the key loop ----

  /** `waitKey(1) & 0xFF`: the low byte of the code (Euclidean `%` equals Python's `& 0xFF`, also for -1). */
  function KeyByte(code: int): (k: int)
    ensures 0 <= k < 256
    ensures 0 <= code < 256 ==> k == code
    ensures (code - k) % 256 == 0
  {
    code % 256
  }

  datatype Phase = Selecting | Confirmed | Cancelled

  /** The selector's state and whether the loop has ended, and how. */
  datatype Session = Session(mouse: Mouse, phase: Phase)

  /** An input that ends the loop: Enter or `q`. */
  predicate Ends(ev: Input) {
    ev.Key? && (KeyByte(ev.code) == EnterKey || KeyByte(ev.code) == QuitKey)
  }

  /**
   * One input while the loop runs. Enter ends it confirmed, `q` ends it
   * cancelled, `r` clears the committed region (drawing flag and anchor
   * stay), other keys do nothing, mouse events go to the callback. After the
   * loop has ended nothing changes.
   */
  function Handle(s: Session, ev: Input): (r: Session)
    ensures s.phase != Selecting ==> r == s
    ensures s.phase == Selecting && Ends(ev) ==>
              r.mouse == s.mouse && r.phase == (if KeyByte(ev.code) == EnterKey then Confirmed else Cancelled)
    ensures s.phase == Selecting && !Ends(ev) ==> r.phase == Selecting
    ensures s.phase == Selecting && ev.Key? && KeyByte(ev.code) == ResetKey ==>
              r.mouse == s.mouse.(region := None)
    ensures ev.Key? && KeyByte(ev.code) != ResetKey ==> r.mouse == s.mouse
  {
    if s.phase != Selecting then s
    else
      match ev
      case Key(code) =>
        var k := KeyByte(code);
        if k == EnterKey then s.(phase := Confirmed)
        else if k == ResetKey then s.(mouse := s.mouse.(region := None))
        else if k == QuitKey then s.(phase := Cancelled)
        else s
      case _ => s.(mouse := OnMouse(s.mouse, ev))
  }

  /** The session after a sequence of inputs. */
  function Run(s: Session, evs: seq<Input>): Session
    decreases |evs|
  {
    if |evs| == 0 then s else Run(Handle(s, evs[0]), evs[1..])
  }

  lemma {:induction false} RunAppend(s: Session, a: seq<Input>, b: seq<Input>)
    ensures Run(s, a + b) == Run(Run(s, a), b)
    decreases |a|
  {
    if |a| > 0 {
      assert (a + b)[1..] == a[1..] + b;
      RunAppend(Handle(s, a[0]), a[1..], b);
    } else {
      assert a + b == b;
    }
  }

  lemma {:induction false} RunEnded(s: Session, evs: seq<Input>)
    requires s.phase != Selecting
    ensures Run(s, evs) == s
    decreases |evs|
  {
    if |evs| > 0 {
      RunEnded(s, evs[1..]);
    }
  }

  /** Inputs that do not end the loop keep it running. */
  lemma {:induction false} RunKeepsSelecting(s: Session, evs: seq<Input>)
    requires s.phase == Selecting
    requires forall i :: 0 <= i < |evs| ==> !Ends(evs[i])
    ensures Run(s, evs).phase == Selecting
    decreases |evs|
  {
    if |evs| > 0 {
      RunKeepsSelecting(Handle(s, evs[0]), evs[1..]);
    }
  }

  /** Every committed rectangle has non-negative width and height, whatever the inputs. */
  lemma {:induction false} RunKeepsNonNegative(s: Session, evs: seq<Input>)
    requires s.mouse.region.Some? ==> s.mouse.region.value.w >= 0 && s.mouse.region.value.h >= 0
    ensures var m := Run(s, evs).mouse;
            m.region.Some? ==> m.region.value.w >= 0 && m.region.value.h >= 0
    decreases |evs|
  {
    if |evs| > 0 {
      RunKeepsNonNegative(Handle(s, evs[0]), evs[1..]);
    }
  }

  // ---- back to frame coordinates ----

  /** One display coordinate in frame coordinates: `int(v / s)`. */
  function ToSource(v: int, s: real): int
    requires s > 0.0
  {
    Trunc(v as real / s)
  }

  /**
   * `t` is `int(v / s)`, characterised without division: for `v >= 0` the
   * frame coordinate whose scaled extent `[t*s, (t+1)*s)` contains `v`; for
   * `v < 0` its mirror image, since `int()` truncates toward zero.
   */
  predicate MapsBack(t: int, v: int, s: real) {
    (v >= 0 ==> t as real * s <= v as real < (t + 1) as real * s) &&
    (v < 0 ==> (t - 1) as real * s < v as real <= t as real * s)
  }

  /** `ToSource` maps every display coordinate back, whatever its sign. */
  lemma ToSourceMapsBack(v: int, s: real)
    requires s > 0.0
    ensures MapsBack(ToSource(v, s), v, s)
  {
    QuotientSign(v, s);
    if v >= 0 {
      TruncUpBracket(v, s);
    } else {
      TruncDownBracket(v, s);
    }
  }

  /** For `v >= 0`, `int(v / s)` is the floor of the quotient: `t*s <= v < (t+1)*s`. */
  lemma TruncUpBracket(v: int, s: real)
    requires s > 0.0 && v as real / s >= 0.0
    ensures var t := ToSource(v, s);
            t as real * s <= v as real < (t + 1) as real * s
  {
    var q := v as real / s;
    var t := ToSource(v, s);
    assert q * s == v as real;
    MulMono(t as real, q, s);
    MulStrict(q, t as real + 1.0, s);
    assert (t + 1) as real == t as real + 1.0;
    assert v as real < (t as real + 1.0) * s;
  }

  /** For `v < 0`, `int(v / s)` is the ceiling of the quotient: `(t-1)*s < v <= t*s`. */
  lemma TruncDownBracket(v: int, s: real)
    requires s > 0.0 && v as real / s < 0.0
    ensures var t := ToSource(v, s);
            (t - 1) as real * s < v as real <= t as real * s
  {
    var q := v as real / s;
    var t := ToSource(v, s);
    assert q * s == v as real;
    MulMono(q, t as real, s);
    MulStrict(t as real - 1.0, q, s);
    assert (t - 1) as real == t as real - 1.0;
    assert (t as real - 1.0) * s < v as real;
  }

  /** Dividing by a positive factor keeps the sign. */
  lemma QuotientSign(v: int, s: real)
    requires s > 0.0
    ensures v >= 0 <==> v as real / s >= 0.0
  {
    var q := v as real / s;
    assert q * s == v as real;
    if q < 0.0 {
      MulStrict(q, 0.0, s);
    } else {
      MulMono(0.0, q, s);
    }
  }

  /**
   * The confirmed rectangle in frame coordinates: unchanged when the frame was
   * shown at native size, and otherwise each of `x`, `y`, `w`, `h` mapped back
   * on its own.
   */
  function MapRegion(rg: Region, s: real): (r: Region)
    requires s > 0.0
    ensures s >= 1.0 ==> r == rg
    ensures s < 1.0 ==>
              MapsBack(r.x, rg.x, s) && MapsBack(r.y, rg.y, s) && MapsBack(r.w, rg.w, s) && MapsBack(r.h, rg.h, s)
  {
    if s < 1.0 then
      ToSourceMapsBack(rg.x, s);
      ToSourceMapsBack(rg.y, s);
      ToSourceMapsBack(rg.w, s);
      ToSourceMapsBack(rg.h, s);
      Region(ToSource(rg.x, s), ToSource(rg.y, s), ToSource(rg.w, s), ToSource(rg.h, s))
    else rg
  }

  /**
   * What `select_region` returns, `Waiting` while the loop has not ended, or
   * `Raised` when `cv2.resize` rejects a display size with a side of 0.
   */
  datatype Outcome = Returned(region: Option<Region>) | Waiting | Raised

  /**
   * The frame can be shown: both sides of its display size are positive.
   * Otherwise `cv2.resize` raises before the window opens.
   */
  predicate Displayable(screen: Size, frame: Size)
    requires Positive(screen) && Positive(frame)
  {
    Positive(DisplaySize(frame, ScaleFactor(screen, frame)))
  }

  /**
   * `select_region` on a frame of size `frame`, on a screen of size `screen`,
   * for a fresh selector and the given inputs.
   */
  function SelectRegion(screen: Size, frame: Size, evs: seq<Input>): (r: Outcome)
    requires Positive(screen) && Positive(frame)
    ensures r == Raised <==> !Displayable(screen, frame)
    ensures Displayable(screen, frame) ==> r == KeyLoop(ScaleFactor(screen, frame), evs)
    ensures r.Returned? && r.region.Some? ==> r.region.value.w >= 0 && r.region.value.h >= 0
  {
    if Displayable(screen, frame) then KeyLoop(ScaleFactor(screen, frame), evs) else Raised
  }

  /**
   * The rest of `select_region` once the frame is displayed at factor `s`:
   * the key loop over the inputs, then the mapping back of the result.
   */
  function KeyLoop(s: real, evs: seq<Input>): (r: Outcome)
    requires s > 0.0
    ensures r != Raised
    ensures r.Returned? && r.region.Some? ==> r.region.value.w >= 0 && r.region.value.h >= 0
  {
    var end := Run(Session(Fresh, Selecting), evs);
    RunKeepsNonNegative(Session(Fresh, Selecting), evs);
    match end.phase
    case Selecting => Waiting
    case Cancelled => Returned(None)
    case Confirmed =>
      match end.mouse.region
      case None => Returned(None)
      case Some(rg) => Returned(Some(MapRegion(rg, s)))
  }

  /**
   * The frame can be shown iff it is not shrunk, or each of its sides times
   * the factor is at least one pixel.
   */
  lemma DisplayableIff(screen: Size, frame: Size)
    requires Positive(screen) && Positive(frame)
    ensures var s := ScaleFactor(screen, frame);
            Displayable(screen, frame) <==>
              s >= 1.0 || (frame.width as real * s >= 1.0 && frame.height as real * s >= 1.0)
  {
    var s := ScaleFactor(screen, frame);
    if s < 1.0 {
      var d := DisplaySize(frame, s);
      ScaledAtLeastOne(d.width, frame.width, s);
      ScaledAtLeastOne(d.height, frame.height, s);
    }
  }

  /** A scaled and truncated side is at least one pixel iff the unrounded side is. */
  lemma ScaledAtLeastOne(t: int, n: int, s: real)
    requires ScaledSide(t, n, s)
    ensures t > 0 <==> n as real * s >= 1.0
  {
    if n as real * s >= 1.0 {
      assert 1.0 < t as real + 1.0;
    }
  }

  /**
   * A frame one pixel wide and 1000 tall on a 1920x1080 screen is shrunk by
   * 0.972 to a display width of 0, so `cv2.resize` raises whatever the inputs.
   */
  lemma ThinFrameRaises()
    ensures ScaleFactor(Size(1920, 1080), Size(1, 1000)) == 0.972
    ensures DisplaySize(Size(1, 1000), 0.972).width == 0
    ensures SelectRegion(Size(1920, 1080), Size(1, 1000), [Key(EnterKey)]) == Raised
  {
    assert Trunc(0.972) == 0;
  }

  // ---- properties of the inverse mapping ----

  /**
   * For a non-negative display coordinate and a factor below 1, the mapped
   * coordinate is the frame pixel whose scaled extent contains it:
   * `t * s <= v < (t + 1) * s`. It is at least `v`.
   */
  lemma ToSourceBracket(v: int, s: real)
    requires v >= 0 && 0.0 < s < 1.0
    ensures var t := ToSource(v, s);
            t >= v && t as real * s <= v as real < (t + 1) as real * s
  {
    ToSourceMapsBack(v, s);
    QuotientAtLeast(v, s);
  }

  /**
   * For a negative display coordinate and a factor below 1, the mapped
   * coordinate is the mirror image of the non-negative case,
   * `(t - 1) * s < v <= t * s`, and it is at most `v`.
   */
  lemma ToSourceBracketNegative(v: int, s: real)
    requires v < 0 && 0.0 < s < 1.0
    ensures var t := ToSource(v, s);
            t <= v && (t - 1) as real * s < v as real <= t as real * s
  {
    ToSourceMapsBack(v, s);
    QuotientAtLeast(-v, s);
    assert (-v) as real / s == -(v as real / s);
  }

  /** Dividing a non-negative value by a factor below 1 does not make it smaller. */
  lemma QuotientAtLeast(v: int, s: real)
    requires v >= 0 && 0.0 < s < 1.0
    ensures v as real / s >= v as real
  {
    var q := v as real / s;
    assert q * s == v as real;
    if v > 0 {
      assert q > 0.0;
      MulMono(s, 1.0, q);
    }
  }

  lemma MulMono(a: real, b: real, s: real)
    requires a <= b && s > 0.0
    ensures a * s <= b * s
  {
    assert b * s - a * s == (b - a) * s;
  }

  lemma MulStrict(a: real, b: real, s: real)
    requires a < b && s > 0.0
    ensures a * s < b * s
  {
    assert b * s - a * s == (b - a) * s;
  }

  /** `a <= n * s` and `s > 0` give `a / s <= n`. */
  lemma DivBound(a: real, n: real, s: real)
    requires s > 0.0 && a <= n * s
    ensures a / s <= n
  {
    var q := a / s;
    assert q * s == a;
    if q > n {
      MulStrict(n, q, s);
    }
  }

  /** Mapping back splits a sum into parts truncated separately: they add up to the truncated sum or one less. */
  lemma MappedEdge(x: int, w: int, s: real)
    requires x >= 0 && w >= 0 && s > 0.0
    ensures 0 <= ToSource(x, s) && 0 <= ToSource(w, s)
    ensures ToSource(x, s) + ToSource(w, s) <= ToSource(x + w, s) <= ToSource(x, s) + ToSource(w, s) + 1
  {
    var qx, qw := x as real / s, w as real / s;
    assert (x + w) as real / s == qx + qw;
  }

  /**
   * The same split for a negative `x` and a non-negative width. When the edge
   * `x + w` is negative too, both are truncated up and the parts add up to the
   * truncated sum or one less. When `x` is truncated up toward zero but the
   * edge is truncated down, they add up to the truncated sum or one more.
   */
  lemma MappedEdgeNegative(x: int, w: int, s: real)
    requires x < 0 && w >= 0 && s > 0.0
    ensures x + w < 0 ==>
              ToSource(x, s) + ToSource(w, s) <= ToSource(x + w, s) <= ToSource(x, s) + ToSource(w, s) + 1
    ensures x + w >= 0 ==>
              ToSource(x, s) + ToSource(w, s) - 1 <= ToSource(x + w, s) <= ToSource(x, s) + ToSource(w, s)
  {
    var qx, qw := x as real / s, w as real / s;
    assert (x + w) as real / s == qx + qw;
    QuotientSign(x, s);
    QuotientSign(w, s);
    QuotientSign(x + w, s);
  }

  /**
   * A release with no press commits `(-1, -1, 2, 2)`; at factor 0.6 it maps
   * to `(-1, -1, 3, 3)`, whose right edge 2 lies one pixel beyond the mapped
   * display edge `int(1 / 0.6) == 1`.
   */
  lemma MappedEdgeOvershoots()
    ensures ToSource(-1, 0.6) == -1 && ToSource(2, 0.6) == 3 && ToSource(1, 0.6) == 1
    ensures KeyLoop(0.6, [Release(1, 1), Key(EnterKey)]) == Returned(Some(Region(-1, -1, 3, 3)))
  {
    assert -1.0 / 0.6 == -5.0 / 3.0;
    assert 1.0 / 0.6 == 5.0 / 3.0;
    assert 2.0 / 0.6 == 10.0 / 3.0;
    var evs := [Release(1, 1), Key(EnterKey)];
    var start := Session(Fresh, Selecting);
    var released := Handle(start, Release(1, 1));
    assert released.mouse.region == Some(Region(-1, -1, 2, 2));
    assert Run(start, evs) == Run(released, [Key(EnterKey)]);
    assert Run(released, [Key(EnterKey)]) == Run(Handle(released, Key(EnterKey)), []);
  }

  /**
   * The right edge of a mapped rectangle (`x' + w'`) can fall one pixel
   * short of the mapped right edge of the display rectangle: at factor 0.6 the
   * display rectangle `(1, 1, 1, 1)` maps to `(1, 1, 1, 1)`, whose right edge
   * is 2, while the display edge at 2 maps to 3.
   */
  lemma MappedEdgeFallsShort()
    ensures MapRegion(Region(1, 1, 1, 1), 0.6) == Region(1, 1, 1, 1)
    ensures ToSource(2, 0.6) == 3
  {
    assert 1.0 / 0.6 == 5.0 / 3.0;
    assert 2.0 / 0.6 == 10.0 / 3.0;
  }

  /**
   * A rectangle drawn inside the displayed frame maps to a rectangle inside
   * the original frame, for every factor the selector can compute.
   */
  lemma MapInside(rg: Region, frame: Size, s: real)
    requires Positive(frame) && s > 0.0
    requires var d := DisplaySize(frame, s); Inside(rg, d.width, d.height)
    ensures Inside(MapRegion(rg, s), frame.width, frame.height)
  {
    if s < 1.0 {
      var d := DisplaySize(frame, s);
      MapSideInside(rg.x, rg.w, frame.width, d.width, s);
      MapSideInside(rg.y, rg.h, frame.height, d.height, s);
    }
  }

  lemma MapSideInside(x: int, w: int, n: int, dn: int, s: real)
    requires n > 0 && 0.0 < s < 1.0 && ScaledSide(dn, n, s)
    requires 0 <= x && 0 <= w && x + w <= dn
    ensures 0 <= ToSource(x, s) && 0 <= ToSource(w, s) && ToSource(x, s) + ToSource(w, s) <= n
  {
    MappedEdge(x, w, s);
    EdgeWithin(x + w, n, dn, s);
  }

  /** A display coordinate at most `dn <= n * s` maps to a frame coordinate at most `n`. */
  lemma EdgeWithin(v: int, n: int, dn: int, s: real)
    requires n > 0 && 0.0 < s < 1.0 && ScaledSide(dn, n, s) && 0 <= v <= dn
    ensures ToSource(v, s) <= n
  {
    var e := v as real;
    assert e <= n as real * s;
    DivBound(e, n as real, s);
    TruncAtMost(e / s, n);
  }

  lemma TruncAtMost(r: real, n: int)
    requires 0.0 <= r <= n as real
    ensures Trunc(r) <= n
  {
  }

  // ---- properties of the interaction ----

  /** The inputs before the loop ends, and the first input that ends it. */
  predicate EndsAt(evs: seq<Input>, i: int) {
    0 <= i < |evs| && Ends(evs[i]) && forall j :: 0 <= j < i ==> !Ends(evs[j])
  }

  /** The session reached after the inputs before the ending one. */
  lemma {:induction false} RunToEnd(evs: seq<Input>, i: int)
    requires EndsAt(evs, i)
    ensures var before := Run(Session(Fresh, Selecting), evs[..i]);
            before.phase == Selecting &&
            Run(Session(Fresh, Selecting), evs) == Handle(before, evs[i])
  {
    var start := Session(Fresh, Selecting);
    assert evs == evs[..i] + [evs[i]] + evs[i + 1..];
    RunKeepsSelecting(start, evs[..i]);
    RunAppend(start, evs[..i] + [evs[i]], evs[i + 1..]);
    RunAppend(start, evs[..i], [evs[i]]);
    var before := Run(start, evs[..i]);
    RunEnded(Handle(before, evs[i]), evs[i + 1..]);
  }

  /**
   * The loop ends at the first Enter or `q`. With `q` nothing is returned,
   * whatever was drawn. With Enter the rectangle committed by then is
   * returned, mapped back to frame coordinates, or nothing if none is
   * committed. Without either key the loop is still waiting.
   */
  lemma SelectOutcome(s: real, evs: seq<Input>, i: int)
    requires s > 0.0 && EndsAt(evs, i)
    ensures var m := Run(Session(Fresh, Selecting), evs[..i]).mouse;
            var r := KeyLoop(s, evs);
            (KeyByte(evs[i].code) == QuitKey ==> r == Returned(None)) &&
            (KeyByte(evs[i].code) == EnterKey && m.region.None? ==> r == Returned(None)) &&
            (KeyByte(evs[i].code) == EnterKey && m.region.Some? ==>
               r == Returned(Some(MapRegion(m.region.value, s))))
  {
    RunToEnd(evs, i);
  }

  lemma NeverEnds(s: real, evs: seq<Input>)
    requires s > 0.0
    requires forall j :: 0 <= j < |evs| ==> !Ends(evs[j])
    ensures KeyLoop(s, evs) == Waiting
  {
    RunKeepsSelecting(Session(Fresh, Selecting), evs);
  }

  /** A release with no press before it commits the rectangle from the initial anchor `(-1, -1)`. */
  lemma ReleaseWithoutPress(x: int, y: int)
    requires x >= -1 && y >= -1
    ensures Run(Session(Fresh, Selecting), [Release(x, y)]).mouse.region == Some(Region(-1, -1, x + 1, y + 1))
  {
    assert Run(Session(Fresh, Selecting), [Release(x, y)])
        == Run(Handle(Session(Fresh, Selecting), Release(x, y)), []);
  }

  /** `r` then Enter returns nothing, whatever was drawn before. */
  lemma ResetThenConfirm(s: real, drawn: seq<Input>, c: int, e: int)
    requires s > 0.0
    requires forall j :: 0 <= j < |drawn| ==> !Ends(drawn[j])
    requires KeyByte(c) == ResetKey && KeyByte(e) == EnterKey
    ensures KeyLoop(s, drawn + [Key(c), Key(e)]) == Returned(None)
  {
    var evs := drawn + [Key(c), Key(e)];
    var i := |drawn| + 1;
    assert evs[..i] == drawn + [Key(c)];
    assert EndsAt(evs, i);
    var start := Session(Fresh, Selecting);
    RunKeepsSelecting(start, drawn);
    RunAppend(start, drawn, [Key(c)]);
    assert Run(Run(start, drawn), [Key(c)]) == Run(Handle(Run(start, drawn), Key(c)), []);
    SelectOutcome(s, evs, i);
  }

  /**
   * A press, any number of moves, a release and Enter return the rectangle
   * spanned by the press and release points, mapped back to frame coordinates.
   */
  lemma DragThenConfirm(s: real, ax: int, ay: int, moves: seq<Input>, px: int, py: int, e: int)
    requires s > 0.0
    requires forall j :: 0 <= j < |moves| ==> moves[j].Move?
    requires KeyByte(e) == EnterKey
    ensures KeyLoop(s, [Press(ax, ay)] + moves + [Release(px, py), Key(e)])
         == Returned(Some(MapRegion(Normalise(ax, ay, px, py), s)))
  {
    var start := Session(Fresh, Selecting);
    var pressed := Handle(start, Press(ax, ay));
    var evs := [Press(ax, ay)] + moves + [Release(px, py), Key(e)];
    var i := |moves| + 2;
    assert evs[..i] == [Press(ax, ay)] + moves + [Release(px, py)];
    assert EndsAt(evs, i);
    RunAppend(start, [Press(ax, ay)] + moves, [Release(px, py)]);
    RunAppend(start, [Press(ax, ay)], moves);
    assert Run(start, [Press(ax, ay)]) == Run(pressed, []);
    MovesChangeNothing(pressed, moves);
    assert Run(pressed, [Release(px, py)]) == Run(Handle(pressed, Release(px, py)), []);
    SelectOutcome(s, evs, i);
  }

  /** Mouse moves never change the session. */
  lemma {:induction false} MovesChangeNothing(s: Session, moves: seq<Input>)
    requires forall j :: 0 <= j < |moves| ==> moves[j].Move?
    ensures Run(s, moves) == s
    decreases |moves|
  {
    if |moves| > 0 {
      MovesChangeNothing(Handle(s, moves[0]), moves[1..]);
    }
  }
}

=== FILE: wrappers.dfy ===
/** Optional values, and results that carry either a value or an error, shared by the rest of the model. */
module Wrappers {

  /** Python's `None` or a present value. */
  datatype Option<+T> = None | Some(value: T)

  /** A value, or the error the Python code would raise instead of returning. */
  datatype Result<+T, +E> = Success(value: T) | Failure(error: E)
}
